=== FILE: README.md ===
# Battleships: board, fleet and computer opponent

A Dafny model of the core of a terminal Battleships game written in Rust:

- the board, a flat `size * size` vector of cells, each holding a ship kind
  and a `damaged` flag;
- the ship kinds, with their fixed ordinals, lengths and labels;
- the computer opponent, which covers fleet placement, the four targeting
  policies, difficulty dispatch and the validate-then-commit step of a turn.

Every operation is a pure function from the old state to the new one. The
opponent's memory stays two flat coordinate lists, one (x, y) pair per cell,
so the pair-indexing of `has_attack` is modelled as written. `has_attack` scans
only even start positions below half the list's length. A pair is found only
while it lies in the first half of the list, so the latest attacks are missed
and the opponent can attack a cell it has already attacked
(`Opponent.SecondHalfUnseen`, `Opponent.RepeatedAttackPossible`).

Modules:

- `Outcomes`: the `Option` and `Result` wrappers.
- `Grid`: the `u32` coordinate type, u32 wrap-around, and row-major addressing (`Index`).
- `Ships`: `src/Ship.rs`.
- `Boards`: the operations of `src/Board.rs`.
- `BoardProperties`: the cell-level view of the whole-board scans, the snapshot/restore round trip, attacks and the cursor.
- `Rng`: the random source.
- `Difficulties`: the difficulty enum.
- `Opponent`: the targeting half of `src/AI.rs`.
- `FleetPlacement`: `AI::place_ships`.

Randomness is an explicit input. A random source is a sequence of draws. Each
`gen_range` / `gen_bool` call consumes one draw and reduces it into its range:
`lo + draw % (hi - lo)` for a range, odd for `true`. Every retry consumes
draws, so the retry loops of `place_ships`, `do_turn` and `smart_turn` are
recursions on the remaining draws. A source that runs out ends the operation
with `None`.

Rust panics become preconditions:

- an `unwrap` on an off-board run;
- `gen_range` on an empty range;
- `size - len` underflowing;
- `size * size` overflowing `u32`.

The neighbour arithmetic of `smart_turn` (`hit_x - 1` and so on) uses u32
wrap-around, which is release-build behaviour. `0 - 1` is 4294967295, and the
bounds check in `do_turn` then rejects it (`Opponent.WrappedStepOnBoard`).

Three behaviours of the code are worth stating plainly:

- `any_overlap` reports a damaged cell of any kind, the cursor kinds `Selection` and `WaterSelection` included.
- `Board::new(Some(0))` builds an empty board.
- `hit_ship` outside the board returns `false`. It is not an error value.

## Model

| member | source | states |
|---|---|---|
| Ships.NewShip | src/Ship.rs:10-15 | a new cell is Empty (ordinal 0) and undamaged |
| Ships.Ordinal | src/Ship.rs:18-29 | ordinals lie in 0..8 and only Empty has ordinal 0 |
| Ships.FromOrdinal | src/Ship.rs:18-29 | `from_u32` succeeds exactly on 0..8, and the kind it returns has that ordinal |
| Ships.OrdinalRoundTrip | src/Ship.rs:18-29 | kind to ordinal and back is the identity; distinct kinds have distinct ordinals |
| Ships.Size | src/Ship.rs:57-66 | the length is positive exactly for the five ship kinds (ordinals 1..5), and then between 2 and 5 |
| Ships.SizesFollowOrdinals | src/Ship.rs:57-66 | stepping through ordinals 1..5 never shortens the ship |
| Ships.Name | src/Ship.rs:32-41 | the display name is non-empty exactly for the five ship kinds |
| Ships.Shorten | src/Ship.rs:43-55 | the short label is "" exactly for Empty and three characters for every other kind |
| Ships.LabelsDistinguishShips | src/Ship.rs:32-55 | distinct ship kinds have distinct names and labels; the two cursor kinds share " + " |
| Grid.Wrap | src/AI.rs:172-205 | u32 arithmetic: the identity on 0..2^32, and otherwise congruent to the exact value mod 2^32 |
| Grid.IndexIsRowMajor | src/Board.rs:22 | the cell address is `y * size + x` |
| Grid.IndexInjective | src/Board.rs:21-27 | distinct in-bounds coordinates address distinct cells |
| Grid.IndexDecompose | src/Board.rs:21-27 | every vector index is the address of the in-bounds pair (j % size, j / size) |
| Boards.New | src/Board.rs:10-15 | size 10 by default, otherwise the requested size; `size * size` cells, each a new cell |
| Boards.GetShip | src/Board.rs:21-27 | fails exactly when x or y is off the board; otherwise returns the cell at index `y * size + x` |
| Boards.WriteCell | src/Board.rs:21-27 | writing through the lookup changes that cell and no other |
| Boards.SetKind | src/Board.rs:151-167 | a kind-only write keeps the cell's damaged flag and every other cell |
| Boards.AnyOverlap | src/Board.rs:33-41 | true exactly when some cell of the vector is damaged, whatever its kind |
| Boards.AllDestroyed | src/Board.rs:43-55 | true exactly when every cell whose kind is not Empty, Selection or WaterSelection is damaged |
| Boards.CountZeroIffAbsent | src/AI.rs:17-47 | a kind has count zero exactly when no cell holds it |
| Boards.CountAfterUpdate | src/Board.rs:177-196 | overwriting one cell moves one unit of count from the old kind to the new one |
| Boards.HitShip | src/Board.rs:132-149 | hits exactly an in-bounds, non-Empty, undamaged cell and damages it; otherwise the board is unchanged; no kind changes and no damage is undone |
| Boards.UpdateShipSelection | src/Board.rs:151-167 | off the board nothing changes; on it the old kind is returned, the cell becomes WaterSelection exactly for Empty or an undamaged Shot and Selection otherwise, damage kept, other cells untouched |
| Boards.Overwrite | src/Board.rs:190-195 | the cell takes the new kind and stays undamaged exactly when it held open water or that same kind |
| Boards.SetShipType | src/Board.rs:169-197 | each run cell takes the kind, damaged exactly when it held a different non-Empty kind; cells off the run are unchanged |
| Boards.GetShipTypes | src/Board.rs:218-231 | the snapshot has one entry per run cell, the kind at that offset |
| Boards.SetShipTypes | src/Board.rs:199-216 | each run cell takes its snapshot kind, undamaged; cells off the run are unchanged |
| BoardProperties.BoardExtensionality | src/Board.rs:4-7 | boards of one size that agree at every coordinate are equal |
| BoardProperties.GetShipAddressesEveryCell | src/Board.rs:21-27 | every vector cell is reachable through `get_ship`, through exactly one coordinate pair |
| BoardProperties.OverlapAtSomeCell | src/Board.rs:33-41 | `any_overlap` holds exactly when some in-bounds coordinate is damaged |
| BoardProperties.WinAtEveryCell | src/Board.rs:43-55 | `all_destroyed` holds exactly when every in-bounds coordinate that counts for the win is damaged |
| BoardProperties.FreshBoardState | src/Board.rs:10-55 | a new board has no damage, already counts as destroyed, and is all open water |
| BoardProperties.CountAllOf | src/Board.rs:10-15 | a vector filled with one kind counts that kind in every cell |
| BoardProperties.RunMembership | src/Board.rs:177-196 | a coordinate lies on a run exactly when it is the run cell at some offset |
| BoardProperties.SnapshotRestore | src/Board.rs:169-231 | snapshot, overwrite, restore: every run cell gets its kind back undamaged and nothing off the run changes |
| BoardProperties.RestoreIsIdentity | src/AI.rs:34-41 | with no damaged cell on the run, the rejected placement gives back the original board |
| BoardProperties.CountAfterWrite | src/Board.rs:21-27 | a coordinate write moves one unit of count from the old kind to the new one |
| BoardProperties.SetShipTypeLastStep | src/Board.rs:177-196 | the run write is the shorter run followed by the write of its last cell |
| BoardProperties.CountAfterLastStep | src/Board.rs:177-196 | the last write over open water takes one cell from Empty and gives it to the kind |
| BoardProperties.CountAfterRun | src/Board.rs:177-196 | a run of `amount` written over open water adds `amount` to the kind's count, takes it from Empty, and leaves every other count alone |
| BoardProperties.HitTwiceIsNoOp | src/Board.rs:132-149 | a second attack on the same cell reports false and changes nothing |
| BoardProperties.HitPreservesWin | src/Board.rs:43-55 | once the board is destroyed, every further attack leaves it destroyed |
| BoardProperties.SelectionRestore | src/Board.rs:151-167 | writing the returned kind back undoes the cursor exactly; while it is there the cell does not count as a ship |
| BoardProperties.DestroyerScenario | src/Board.rs:132-149 | a destroyer at (0, 0): hit, repeated hit without effect, hit of the second cell, board destroyed |
| Rng.GenRange | src/AI.rs:127-133 | `gen_range(lo..hi)` lies in `[lo, hi)` |
| Rng.GenRangeInclusive | src/AI.rs:135-153 | `gen_range(lo..=hi)` lies in `[lo, hi]` |
| Rng.GenBool | src/AI.rs:29 | `gen_bool(0.5)` is the fair coin of drawing from `0..2` |
| Rng.EveryOutcomeDrawable | src/AI.rs:26-29 | every value of a range and both booleans come from some draw |
| Opponent.NewAI | src/AI.rs:10-15 | nothing recorded, and consistent with every board |
| Opponent.ScanPairs | src/AI.rs:221-227 | the loop finds (x, y) exactly at an even start below `len / 2` |
| Opponent.HasAttack | src/AI.rs:214-230 | false on an empty list; true exactly when (x, y) is stored at an even start below `len / 2`, and then it is a stored pair |
| Opponent.LatestAttackUnseen | src/AI.rs:214-230 | the pair just appended is never the one `has_attack` finds |
| Opponent.SecondHalfUnseen | src/AI.rs:219-221 | an example: in the list (1, 1), (2, 2) the stored pair (2, 2) lies in the second half and is reported absent |
| Opponent.RandomTurn | src/AI.rs:127-133 | both coordinates in `[0, size)`, two draws consumed |
| Opponent.RandomTurnReachesEveryCell | src/AI.rs:127-133 | every cell of the board is proposed, by the draws holding its coordinates |
| Opponent.CornerTurn | src/AI.rs:135-141 | each coordinate is 0 or `size - 1` |
| Opponent.CornerTurnReachesEveryCorner | src/AI.rs:135-141 | each of the four corners is proposed: draw 0 gives 0 and draw 1 gives `size - 1`, per coordinate |
| Opponent.CenterTurn | src/AI.rs:143-153 | each coordinate in `[size/4, size/4 + size/2]`, which lies on the board |
| Opponent.CenterTurnReachesEveryBandCell | src/AI.rs:143-153 | every cell of the band is proposed, each coordinate `v` by the draw `v - size/4` |
| Opponent.Offset | src/AI.rs:172-205 | each option moves at most one step on each axis and never stays put |
| Opponent.OptionFor | src/AI.rs:172-205 | every one of the eight neighbour offsets is produced by some option |
| Opponent.OffsetsAreNeighbours | src/AI.rs:172-205 | the eight options and the eight neighbours correspond one to one |
| Opponent.PairIndex | src/AI.rs:162-165 | the chosen index is even and the pair at it is inside the list |
| Opponent.NeighbourOf | src/AI.rs:164-205 | the proposal is one of the eight cells around the hit, never the hit itself |
| Opponent.SmartTurn | src/AI.rs:155-212 | random without hits; otherwise a neighbour of a recorded hit that `has_attack` does not report; when `has_attack` does not report the neighbour its two draws select, that neighbour is the proposal; the draws left over are a proper suffix of the draws given |
| Opponent.SmartTurnRedraws | src/AI.rs:207-209 | when `has_attack` reports the selected neighbour, the turn is the one on the draws after the two used |
| Opponent.SmartTurnReachesEveryNeighbour | src/AI.rs:162-211 | every neighbour of every recorded hit that `has_attack` does not report is proposed, by the pair draw `k / 2` and the option producing its offset |
| Opponent.WrappedStepOnBoard | src/AI.rs:103-106 | a wrapped neighbour is on the board exactly when the signed one is; `0 - 1` wraps to 4294967295 |
| Opponent.PolicyFor | src/AI.rs:55-101 | each generator is chosen exactly for its difficulty and options: random for Easy and Medium 0, corner for Hard 0, centre for Hard 1, smart for Medium 1 and Hard 2 or 3 |
| Opponent.OptionDrawSelects | src/AI.rs:60-100 | the option draw picks the generator by its residue: mod 2 for Medium, mod 4 for Hard |
| Opponent.PolicyShares | src/AI.rs:55-101 | Easy: random; Medium: option 0 random, 1 smart; Hard: 0 corner, 1 centre, 2 and 3 smart |
| Opponent.RunPolicy | src/AI.rs:55-101 | each generator's proposal has its shape: random on the board, corner coordinates in {0, size - 1}, centre in the middle band, smart next to a recorded hit and not reported by `has_attack`; the draws left over are a proper suffix of the draws given |
| Opponent.ChooseCandidate | src/AI.rs:55-101 | Easy runs the random generator; Medium and Hard run the generator their option draw (mod 2, mod 4) selects on the remaining draws; the draws left over are a proper suffix of the draws given |
| Opponent.Commit | src/AI.rs:118-124 | the attack list grows by exactly (x, y), the hit list by (x, y) exactly when `hit_ship` hits |
| Opponent.AppendPairOnBoard | src/AI.rs:123-124 | appending an on-board pair keeps every recorded pair on the board |
| Opponent.HitsStayDamaged | src/AI.rs:118-121 | recorded hits stay damaged when no kind changes and no damage is undone |
| Opponent.AppendDamagedHit | src/AI.rs:118-121 | appending a damaged, occupied cell keeps every recorded hit damaged |
| Opponent.CommitKeepsConsistent | src/AI.rs:118-124 | both lists keep even length, attacks stay on the board, hits name damaged ship cells |
| Opponent.DoTurn | src/AI.rs:49-125 | commits only a candidate on the board, not reported by `has_attack`, with an undamaged cell, and keeps the memory consistent; which candidate is committed is stated by `Opponent.DoTurnStep` and `Opponent.DoTurnCommitsAProposal` |
| Opponent.DoTurnStep | src/AI.rs:55-124 | no proposal gives no turn; a proposal passing the three checks is committed as is; a rejected one is retried on the draws left over |
| Opponent.DoTurnCommitsAProposal | src/AI.rs:49-125 | the committed cell is what the difficulty's generators propose from the draws or from draws left over after rejected proposals |
| Rng.DrawsLeftTransitive | src/AI.rs:103-116 | draws left over after draws left over are draws left over from the start: each recursive retry of `do_turn` takes from the same stream |
| Opponent.RepeatedAttackPossible | src/AI.rs:103-124 | with (4, 4), (3, 3) attacked, a turn attacks (3, 3) again |
| Opponent.RepeatedAttackProposed | src/AI.rs:103-116 | in that example the draws (3, 3) propose (3, 3) and all three checks of `do_turn` let it through |
| Opponent.RepeatedAttackCommitted | src/AI.rs:118-124 | in that example the turn commits (3, 3) and the attack list holds it twice |
| FleetPlacement.DrawOrigin | src/AI.rs:26-32 | origin along the run in `[0, size - len]`, across it in `[0, size)`: the run fits |
| FleetPlacement.EveryRunDrawable | src/AI.rs:26-32 | every run that fits is produced by some draws |
| FleetPlacement.TryPlace | src/AI.rs:34-41 | a kept attempt leaves no damage and the kind on the run; a rejected one restores the run's kinds undamaged; cells off the run unchanged |
| FleetPlacement.ClearRunStaysUndamaged | src/AI.rs:34-39 | writing over open water or the same kind damages nothing |
| FleetPlacement.UndamagedRunWasClear | src/AI.rs:34-39 | a write that damages nothing was over open water or the same kind |
| FleetPlacement.AcceptedIffClear | src/AI.rs:34-41 | on an undamaged board an attempt is kept exactly when its run was clear, and a rejected one leaves the board as it was |
| FleetPlacement.AcceptedRunWasOpenWater | src/AI.rs:34-39 | a kept run of a kind not yet placed was all open water |
| Rng.DropLeavesSuffix | src/AI.rs:26-29 | the draws after the first `k` are left over, and so is whatever they leave over |
| FleetPlacement.PlaceKind | src/AI.rs:25-42 | the placed board has no damaged cell; at least three draws consumed, and the draws left over are a suffix of the draws given; fewer than three draws place nothing |
| FleetPlacement.PlaceKindFirstAttempt | src/AI.rs:25-42 | on an undamaged board a clear first run ends the loop with that run written and three draws used; any other run leaves the board and the loop starts over on the next draws |
| FleetPlacement.PlaceKindCounts | src/AI.rs:25-42 | placing a kind moves exactly its size in cells from open water to it |
| FleetPlacement.FreshIsPlacedUpToNone | src/Board.rs:10-15 | a fresh board holds no ship kind |
| FleetPlacement.PlaceKindAdvances | src/AI.rs:20-46 | placing the kind with ordinal `j` after the kinds before it gives each of them, and it, exactly its size |
| FleetPlacement.PlaceFrom | src/AI.rs:20-46 | the kinds from ordinal `j` on are placed in turn: no damaged cell, draws left over a suffix, and a fleet placed up to `j - 1` becomes complete |
| FleetPlacement.PlaceShips | src/AI.rs:17-47 | no damaged cell; from a fresh board each of the five kinds occupies exactly its size and no sentinel kind appears |
| FleetPlacement.RowByRowPlaces | src/AI.rs:20-46 | when rows `row..` are open water, the draws putting each remaining kind at the start of its own row place them all |
| FleetPlacement.FreshIsOpenWater | src/Board.rs:10-15 | a fresh board has no damaged cell and holds open water on every row |
| FleetPlacement.FleetPlacedRowByRow | src/AI.rs:17-47 | on every fresh board of size at least 5, the draws 0, 0, 1, 0, 1, 1, 0, 2, 1, 0, 3, 1, 0, 4, 1 place the whole fleet |

## Left out

- `Board::show`, the `Difficulty` display strings and colours, `Game.rs` and `main.rs` are terminal input and output only. The cursor protocol the game drives is covered by `BoardProperties.SelectionRestore`.
- The probability weights of the random choices are not modelled. Only which draw leads to which outcome is stated (`Rng.EveryOutcomeDrawable`, `FleetPlacement.EveryRunDrawable`, `Opponent.RandomTurnReachesEveryCell`, `Opponent.CornerTurnReachesEveryCorner`, `Opponent.CenterTurnReachesEveryBandCell`, `Opponent.SmartTurnReachesEveryNeighbour`, `Opponent.OptionDrawSelects`, `Opponent.ChooseCandidate`).
- `FleetPlacement.PlaceKind`: the inner `loop` retries without bound in the source. The model retries while draws remain and returns `None` when they run out; `PlaceKindFirstAttempt` states when an attempt ends the loop.
- `FleetPlacement.PlaceShips`: returns `None` when some kind's draws run out, where the source would keep drawing. `FleetPlacedRowByRow` shows draws that always succeed on a fresh board.
- `Opponent.DoTurn`: the recursive retry runs without bound in the source. The model returns `None` when the draws run out; `DoTurnStep` states each step.
- `Opponent.SmartTurn`: `smart_turn` can loop forever in the source, for example when every neighbour of every hit is reported attacked. The model ends with `None` once the draws run out.
- The u32 underflow in `smart_turn` is modelled with release-build wrap-around. A debug build panics there instead.
- `Boards.GetShip`: the address `y * size + x` is computed in u32 before the bounds check, so a debug build can panic on an overflowing off-board coordinate. The model reports the error for every off-board coordinate.
- `Boards.New`: requires `size * size < 2^32`. The source's u32 multiplication would overflow beyond that.
- `FleetPlacement.PlaceShips`: requires a board of size at least 5. Below that, `size - len` underflows for the Carrier.
- The `println!` of the error message on the off-board paths of `hit_ship` and `update_ship_selection` is output only. The model returns the same values without it.
- `Ships.Size`: the contract bounds the lengths. The exact table (2, 3, 3, 4, 5) is in the function's definition.

=== FILE: ai.dfy ===
/** The computer opponent's targeting (AI.rs): candidate generators for each
    difficulty, the duplicate check over its attack memory, and the
    validate-then-commit step of a turn. Random choices come from a stream of
    draws; every retry consumes draws, so a stream that runs out ends the turn
    with `None`. */
module Opponent {
  import opened Outcomes
  import opened Grid
  import opened Ships
  import opened Boards
  import opened Rng
  import opened Difficulties

  /** The opponent's memory: two flat lists holding one (x, y) pair per cell,
      the cells it has hit and the cells it has attacked. */
  datatype AI = AI(hitSpots: seq<U32>, attackSpots: seq<U32>)

  /** The pair (x, y) is stored in `spots` at some even position. */
  predicate IsRecorded(spots: seq<U32>, x: nat, y: nat) {
    exists k :: 0 <= k < |spots| - 1 && k % 2 == 0 && spots[k] == x && spots[k + 1] == y
  }

  /** `spots` holds whole pairs, each naming a cell of a board of size `size`. */
  predicate PairsOnBoard(spots: seq<U32>, size: nat) {
    && |spots| % 2 == 0
    && forall k :: 0 <= k < |spots| - 1 && k % 2 == 0 ==> spots[k] < size && spots[k + 1] < size
  }

  /** Every pair of `hits` names an occupied, damaged cell of `b`. */
  predicate HitsDamaged(hits: seq<U32>, b: Board)
    requires b.Valid() && PairsOnBoard(hits, b.size)
  {
    forall k :: 0 <= k < |hits| - 1 && k % 2 == 0 ==>
      CellAt(b, hits[k], hits[k + 1]).kind != Empty && CellAt(b, hits[k], hits[k + 1]).damaged
  }

  /** The opponent's memory agrees with the board it attacks: every attacked
      pair is on the board, and every hit pair names an occupied, damaged
      cell. */
  predicate Consistent(ai: AI, b: Board)
    requires b.Valid()
  {
    && PairsOnBoard(ai.attackSpots, b.size)
    && PairsOnBoard(ai.hitSpots, b.size)
    && HitsDamaged(ai.hitSpots, b)
  }

  /** `AI::new`: nothing attacked, nothing hit, consistent with any board. */
  function NewAI(): (ai: AI)
    ensures forall x: nat, y: nat :: !IsRecorded(ai.attackSpots, x, y) && !IsRecorded(ai.hitSpots, x, y)
    ensures forall b: Board :: b.Valid() ==> Consistent(ai, b)
  {
    AI([], [])
  }

  /* ---------------------------------------------------------------------- */
  /* has_attack                                                              */

  /** The loop `for i in (0..length).step_by(2)` of `has_attack`, from `i` on. */
  function ScanPairs(spots: seq<U32>, length: nat, i: nat, x: nat, y: nat): (r: bool)
    requires length == |spots| / 2 && i % 2 == 0
    ensures r <==> exists j :: i <= j < length && j % 2 == 0 && spots[j] == x && spots[j + 1] == y
    decreases length - i
  {
    if i >= length then false
    else if spots[i] == x && spots[i + 1] == y then true
    else ScanPairs(spots, length, i + 2, x, y)
  }

  /** `has_attack`: looks for (x, y) among the pairs that start at an even
      position below `len / 2`, that is, in the first half of the list only.
      A true answer always names a stored pair. */
  function HasAttack(spots: seq<U32>, x: nat, y: nat): (r: bool)
    ensures r <==> exists i :: 0 <= i < |spots| / 2 && i % 2 == 0 && spots[i] == x && spots[i + 1] == y
    ensures r ==> IsRecorded(spots, x, y)
  {
    if |spots| == 0 then false
    else ScanPairs(spots, |spots| / 2, 0, x, y)
  }

  /** The pair just appended to a list of at least one pair is never the one
      `has_attack` finds: its answer for the new pair depends only on the
      older entries. */
  lemma LatestAttackUnseen(spots: seq<U32>, x: U32, y: U32)
    requires |spots| >= 2 && |spots| % 2 == 0
    ensures HasAttack(spots + [x, y], x, y) ==> IsRecorded(spots, x, y)
  {
    var s := spots + [x, y];
    if HasAttack(s, x, y) {
      var i :| 0 <= i < |s| / 2 && i % 2 == 0 && s[i] == x && s[i + 1] == y;
      assert s[i] == spots[i] && s[i + 1] == spots[i + 1];
    }
  }

  /** An example of the half scan: in the list (1, 1), (2, 2) the stored pair
      (2, 2) lies in the second half and goes unnoticed. */
  lemma SecondHalfUnseen()
    ensures IsRecorded([1, 1, 2, 2], 2, 2)
    ensures !HasAttack([1, 1, 2, 2], 2, 2)
  {
    var s: seq<U32> := [1, 1, 2, 2];
    assert s[2] == 2 && s[3] == 2;
  }

  /* ---------------------------------------------------------------------- */
  /* Candidate generators                                                    */

  /** A proposed target and the draws left after proposing it. */
  datatype Candidate = Candidate(x: U32, y: U32, rest: seq<nat>)

  /** `random_turn`: any cell of the board. */
  function RandomTurn(size: U32, rng: seq<nat>): (r: Option<Candidate>)
    requires size > 0
    ensures r.Some? <==> |rng| >= 2
    ensures r.Some? ==> r.value.x < size && r.value.y < size && r.value.rest == rng[2..]
  {
    if |rng| < 2 then None
    else Some(Candidate(GenRange(0, size, rng[0]), GenRange(0, size, rng[1]), rng[2..]))
  }

  /** `corner_turn`: each coordinate is 0 or `size - 1`, chosen independently. */
  function CornerTurn(size: U32, rng: seq<nat>): (r: Option<Candidate>)
    requires size > 0
    ensures r.Some? <==> |rng| >= 2
    ensures r.Some? ==> (r.value.x == 0 || r.value.x == size - 1) && (r.value.y == 0 || r.value.y == size - 1)
    ensures r.Some? ==> r.value.rest == rng[2..]
  {
    if |rng| < 2 then None
    else
      var x := GenRangeInclusive(0, 1, rng[0]) * (size - 1);
      var y := GenRangeInclusive(0, 1, rng[1]) * (size - 1);
      Some(Candidate(x, y, rng[2..]))
  }

  /** `center_turn`: each coordinate in `size / 4 ..= size / 4 + size / 2`,
      a band that lies on the board. */
  function CenterTurn(size: U32, rng: seq<nat>): (r: Option<Candidate>)
    ensures r.Some? <==> |rng| >= 2
    ensures r.Some? ==> size / 4 <= r.value.x <= size / 4 + size / 2 && size / 4 <= r.value.y <= size / 4 + size / 2
    ensures r.Some? && size > 0 ==> r.value.x < size && r.value.y < size
    ensures r.Some? ==> r.value.rest == rng[2..]
  {
    if |rng| < 2 then None
    else
      var middle := size / 2;
      var width := size / 4;
      Some(Candidate(GenRangeInclusive(width, width + middle, rng[0]), GenRangeInclusive(width, width + middle, rng[1]), rng[2..]))
  }

  /** Every cell of the board is proposed by `random_turn` for the draws
      holding its coordinates. */
  lemma RandomTurnReachesEveryCell(size: U32, x: nat, y: nat, rest: seq<nat>)
    requires x < size && y < size
    ensures RandomTurn(size, [x, y] + rest) == Some(Candidate(x, y, rest))
  {
    var rng := [x, y] + rest;
    assert rng[0] == x && rng[1] == y && rng[2..] == rest;
    EveryOutcomeDrawable(0, size, x);
    EveryOutcomeDrawable(0, size, y);
  }

  /** Each of the four corners is proposed by `corner_turn`: draw 0 picks
      coordinate 0 and draw 1 picks `size - 1`. */
  lemma CornerTurnReachesEveryCorner(size: U32, cx: nat, cy: nat, rest: seq<nat>)
    requires size > 0 && cx <= 1 && cy <= 1
    ensures CornerTurn(size, [cx, cy] + rest)
            == Some(Candidate(if cx == 0 then 0 else size - 1, if cy == 0 then 0 else size - 1, rest))
  {
    var rng := [cx, cy] + rest;
    assert rng[0] == cx && rng[1] == cy && rng[2..] == rest;
  }

  /** Every cell of the centre band is proposed by `center_turn`: each
      coordinate `v` comes from the draw `v - size / 4`. */
  lemma CenterTurnReachesEveryBandCell(size: U32, x: U32, y: U32, rest: seq<nat>)
    requires size / 4 <= x <= size / 4 + size / 2 && size / 4 <= y <= size / 4 + size / 2
    ensures CenterTurn(size, [x - size / 4, y - size / 4] + rest) == Some(Candidate(x, y, rest))
  {
    var width, middle := size / 4, size / 2;
    var rng := [x - width, y - width] + rest;
    assert rng[0] == x - width && rng[1] == y - width && rng[2..] == rest;
    EveryOutcomeDrawable(width, width + middle + 1, x);
    EveryOutcomeDrawable(width, width + middle + 1, y);
    assert GenRangeInclusive(width, width + middle, rng[0]) == x;
    assert GenRangeInclusive(width, width + middle, rng[1]) == y;
    assert CenterTurn(size, rng)
           == Some(Candidate(GenRangeInclusive(width, width + middle, rng[0]), GenRangeInclusive(width, width + middle, rng[1]), rng[2..]));
  }

  /** The eight neighbour offsets, numbered as the arms of the `match option`
      in `smart_turn`. */
  function Offset(option: nat): (d: (int, int))
    requires option < 8
    ensures -1 <= d.0 <= 1 && -1 <= d.1 <= 1 && d != (0, 0)
  {
    if option == 0 then (-1, -1)
    else if option == 1 then (0, -1)
    else if option == 2 then (1, -1)
    else if option == 3 then (-1, 0)
    else if option == 4 then (1, 0)
    else if option == 5 then (-1, 1)
    else if option == 6 then (0, 1)
    else (1, 1)
  }

  /** Which option produces a given offset: the offsets read row by row, with
      the centre left out. */
  function OptionFor(dx: int, dy: int): (o: nat)
    requires -1 <= dx <= 1 && -1 <= dy <= 1 && (dx, dy) != (0, 0)
    ensures o < 8 && Offset(o) == (dx, dy)
  {
    var cell := (dy + 1) * 3 + (dx + 1);
    if cell < 4 then cell else cell - 1
  }

  /** The eight options are exactly the eight neighbours, each once. */
  lemma OffsetsAreNeighbours(o: nat)
    requires o < 8
    ensures OptionFor(Offset(o).0, Offset(o).1) == o
  {
  }

  /** (x, y) is one of the eight cells around (hx, hy), with `hx - 1` and the
      like taken in u32 arithmetic. */
  predicate NextTo(x: nat, y: nat, hx: U32, hy: U32) {
    && (x != hx || y != hy)
    && (x == Wrap(hx - 1) || x == hx || x == Wrap(hx + 1))
    && (y == Wrap(hy - 1) || y == hy || y == Wrap(hy + 1))
  }

  /** (x, y) is next to some recorded hit. */
  predicate NearRecordedHit(hits: seq<U32>, x: nat, y: nat) {
    exists k :: 0 <= k < |hits| - 1 && k % 2 == 0 && NextTo(x, y, hits[k], hits[k + 1])
  }

  /** `gen_range(0..len / 2) * 2`: the start of one recorded pair. */
  function PairIndex(len: nat, draw: nat): (k: nat)
    requires len >= 2
    ensures k % 2 == 0 && k + 1 < len
  {
    GenRange(0, len / 2, draw) * 2
  }

  /** One neighbour of the recorded hit at `k`, in u32 arithmetic. */
  function NeighbourOf(hits: seq<U32>, k: nat, option: nat): (c: (U32, U32))
    requires k + 1 < |hits| && option < 8
    ensures NextTo(c.0, c.1, hits[k], hits[k + 1])
  {
    (Wrap(hits[k] + Offset(option).0), Wrap(hits[k + 1] + Offset(option).1))
  }

  /** `smart_turn`: without hits it is `random_turn`; otherwise it proposes a
      neighbour of a recorded hit that `has_attack` does not report, drawing
      again while it does. */
  function SmartTurn(ai: AI, size: U32, rng: seq<nat>): (r: Option<Candidate>)
    requires size > 0 && |ai.hitSpots| % 2 == 0
    ensures |ai.hitSpots| == 0 ==> r == RandomTurn(size, rng)
    ensures r.Some? ==> |r.value.rest| < |rng| && DrawsLeft(r.value.rest, rng)
    ensures r.Some? && |ai.hitSpots| > 0 ==>
              NearRecordedHit(ai.hitSpots, r.value.x, r.value.y) && !HasAttack(ai.attackSpots, r.value.x, r.value.y)
    ensures |ai.hitSpots| > 0 && |rng| >= 2 ==>
              var c := NeighbourOf(ai.hitSpots, PairIndex(|ai.hitSpots|, rng[0]), GenRange(0, 8, rng[1]));
              !HasAttack(ai.attackSpots, c.0, c.1) ==> r == Some(Candidate(c.0, c.1, rng[2..]))
    decreases |rng|
  {
    if |ai.hitSpots| == 0 then RandomTurn(size, rng)
    else if |rng| < 2 then None
    else
      var k := PairIndex(|ai.hitSpots|, rng[0]);
      var c := NeighbourOf(ai.hitSpots, k, GenRange(0, 8, rng[1]));
      DropLeavesSuffix(rng, 2);
      if HasAttack(ai.attackSpots, c.0, c.1) then SmartTurn(ai, size, rng[2..])
      else Some(Candidate(c.0, c.1, rng[2..]))
  }

  /** `smart_turn` draws again, from the draws after the two it used, exactly
      when `has_attack` reports the neighbour those two selected. */
  lemma SmartTurnRedraws(ai: AI, size: U32, rng: seq<nat>)
    requires size > 0 && |ai.hitSpots| % 2 == 0 && |ai.hitSpots| > 0 && |rng| >= 2
    ensures var c := NeighbourOf(ai.hitSpots, PairIndex(|ai.hitSpots|, rng[0]), GenRange(0, 8, rng[1]));
            HasAttack(ai.attackSpots, c.0, c.1) ==> SmartTurn(ai, size, rng) == SmartTurn(ai, size, rng[2..])
  {
  }

  /** Every neighbour of every recorded hit that `has_attack` does not report
      is proposed by some draws: the pair draw `k / 2` and the option that
      produces the offset. */
  lemma SmartTurnReachesEveryNeighbour(ai: AI, size: U32, k: nat, dx: int, dy: int, rest: seq<nat>)
    requires size > 0 && |ai.hitSpots| % 2 == 0
    requires k % 2 == 0 && k + 1 < |ai.hitSpots|
    requires -1 <= dx <= 1 && -1 <= dy <= 1 && (dx, dy) != (0, 0)
    requires !HasAttack(ai.attackSpots, Wrap(ai.hitSpots[k] + dx), Wrap(ai.hitSpots[k + 1] + dy))
    ensures SmartTurn(ai, size, [k / 2, OptionFor(dx, dy)] + rest)
            == Some(Candidate(Wrap(ai.hitSpots[k] + dx), Wrap(ai.hitSpots[k + 1] + dy), rest))
  {
    var rng := [k / 2, OptionFor(dx, dy)] + rest;
    var option := OptionFor(dx, dy);
    assert rng[0] == k / 2 && rng[1] == option && rng[2..] == rest;
    var half := |ai.hitSpots| / 2;
    assert k / 2 < half;
    EveryOutcomeDrawable(0, half, k / 2);
    assert PairIndex(|ai.hitSpots|, k / 2) == k;
    EveryOutcomeDrawable(0, 8, option);
    assert NeighbourOf(ai.hitSpots, k, GenRange(0, 8, rng[1])) == (Wrap(ai.hitSpots[k] + dx), Wrap(ai.hitSpots[k + 1] + dy));
  }

  /** u32 neighbour arithmetic agrees with signed arithmetic on the board: the
      wrapped coordinate is below `size` exactly when the signed one is in
      `[0, size)`, and then they are equal. So `0 - 1`, which wraps to
      4294967295, is a candidate the bounds check of `do_turn` turns away. */
  lemma WrappedStepOnBoard(h: U32, d: int, size: U32)
    requires h < size && -1 <= d <= 1
    ensures Wrap(h + d) < size <==> 0 <= h + d < size
    ensures 0 <= h + d < size ==> Wrap(h + d) == h + d
    ensures h == 0 && d == -1 ==> Wrap(h + d) == U32_MODULUS - 1
  {
  }

  /* ---------------------------------------------------------------------- */
  /* Difficulty dispatch                                                     */

  datatype Policy = RandomPolicy | CornerPolicy | CenterPolicy | SmartPolicy

  /** The generator `do_turn` runs for a difficulty and its `option` draw
      (`0..=1` for Medium, `0..=3` for Hard; Easy draws none). */
  function PolicyFor(d: Difficulty, option: nat): (p: Policy)
    ensures p == RandomPolicy <==> d == Easy || (d == Medium && option == 0)
    ensures p == CornerPolicy <==> d == Hard && option == 0
    ensures p == CenterPolicy <==> d == Hard && option == 1
    ensures p == SmartPolicy <==> (d == Medium && option != 0) || (d == Hard && option >= 2)
  {
    match d
    case Easy => RandomPolicy
    case Medium => if option == 0 then RandomPolicy else SmartPolicy
    case Hard => if option == 0 then CornerPolicy else if option == 1 then CenterPolicy else SmartPolicy
  }

  /** The option draw selects the generator by its residue: Medium runs random
      on even draws and smart on odd ones; Hard runs corner, centre, smart,
      smart for residues 0, 1, 2, 3 modulo 4. */
  lemma OptionDrawSelects(draw: nat)
    ensures PolicyFor(Medium, GenRangeInclusive(0, 1, draw)) == (if draw % 2 == 0 then RandomPolicy else SmartPolicy)
    ensures PolicyFor(Hard, GenRangeInclusive(0, 3, draw))
            == (if draw % 4 == 0 then CornerPolicy else if draw % 4 == 1 then CenterPolicy else SmartPolicy)
  {
  }

  /** The options each difficulty gives each generator: Easy is always random;
      Medium gives random and smart one option each; Hard gives corner and
      centre one each and smart two of its four. */
  lemma PolicyShares()
    ensures forall o: nat :: PolicyFor(Easy, o) == RandomPolicy
    ensures (set o: nat | o <= 1 && PolicyFor(Medium, o) == RandomPolicy) == {0}
    ensures (set o: nat | o <= 1 && PolicyFor(Medium, o) == SmartPolicy) == {1}
    ensures (set o: nat | o <= 3 && PolicyFor(Hard, o) == CornerPolicy) == {0}
    ensures (set o: nat | o <= 3 && PolicyFor(Hard, o) == CenterPolicy) == {1}
    ensures (set o: nat | o <= 3 && PolicyFor(Hard, o) == SmartPolicy) == {2, 3}
  {
  }

  /** Runs one generator: each policy's proposal has that generator's shape. */
  function RunPolicy(p: Policy, ai: AI, size: U32, rng: seq<nat>): (r: Option<Candidate>)
    requires size > 0 && |ai.hitSpots| % 2 == 0
    ensures p != SmartPolicy ==> (r.Some? <==> |rng| >= 2)
    ensures r.Some? ==> |r.value.rest| < |rng| && DrawsLeft(r.value.rest, rng)
    ensures r.Some? && p == RandomPolicy ==> r.value.x < size && r.value.y < size
    ensures r.Some? && p == CornerPolicy ==>
              (r.value.x == 0 || r.value.x == size - 1) && (r.value.y == 0 || r.value.y == size - 1)
    ensures r.Some? && p == CenterPolicy ==>
              && size / 4 <= r.value.x <= size / 4 + size / 2 && size / 4 <= r.value.y <= size / 4 + size / 2
              && r.value.x < size && r.value.y < size
    ensures r.Some? && p == SmartPolicy && |ai.hitSpots| == 0 ==> r.value.x < size && r.value.y < size
    ensures r.Some? && p == SmartPolicy && |ai.hitSpots| > 0 ==>
              NearRecordedHit(ai.hitSpots, r.value.x, r.value.y) && !HasAttack(ai.attackSpots, r.value.x, r.value.y)
  {
    match p
    case RandomPolicy => RandomTurn(size, rng)
    case CornerPolicy => CornerTurn(size, rng)
    case CenterPolicy => CenterTurn(size, rng)
    case SmartPolicy => SmartTurn(ai, size, rng)
  }

  /** The `match game_difficulty` of `do_turn`: draw the option, if any, and
      run the chosen generator. */
  function ChooseCandidate(ai: AI, size: U32, d: Difficulty, rng: seq<nat>): (r: Option<Candidate>)
    requires size > 0 && |ai.hitSpots| % 2 == 0
    ensures r.Some? ==> |r.value.rest| < |rng| && DrawsLeft(r.value.rest, rng)
    ensures r.Some? && d == Easy ==> r.value.x < size && r.value.y < size
    ensures d == Easy ==> r == RunPolicy(RandomPolicy, ai, size, rng)
    ensures d != Easy && |rng| == 0 ==> r.None?
    ensures d != Easy && |rng| > 0 ==>
              r == RunPolicy(PolicyFor(d, rng[0] % (if d == Medium then 2 else 4)), ai, size, rng[1..])
  {
    match d
    case Easy => RunPolicy(PolicyFor(Easy, 0), ai, size, rng)
    case Medium =>
      if |rng| == 0 then None
      else
        RunPolicy(PolicyFor(Medium, GenRangeInclusive(0, 1, rng[0])), ai, size, rng[1..])
    case Hard =>
      if |rng| == 0 then None
      else
        RunPolicy(PolicyFor(Hard, GenRangeInclusive(0, 3, rng[0])), ai, size, rng[1..])
  }

  /* ---------------------------------------------------------------------- */
  /* A turn                                                                  */

  /** The result of a turn: the opponent's memory, the attacked board, the
      target and whether it hit. */
  datatype Turn = Turn(ai: AI, board: Board, x: U32, y: U32, hit: bool)

  /** The end of `do_turn`: attack (x, y), record it, and record it as a hit
      when `hit_ship` reports one. */
  function Commit(ai: AI, b: Board, x: U32, y: U32): (t: Turn)
    requires b.Valid() && x < b.size && y < b.size
    ensures t.x == x && t.y == y
    ensures t.board == HitShip(b, x, y).board && t.hit == HitShip(b, x, y).hit
    ensures t.ai.attackSpots == ai.attackSpots + [x, y]
    ensures t.ai.hitSpots == ai.hitSpots + (if t.hit then [x, y] else [])
  {
    var a := HitShip(b, x, y);
    Turn(AI(if a.hit then ai.hitSpots + [x, y] else ai.hitSpots, ai.attackSpots + [x, y]), a.board, x, y, a.hit)
  }

  /** Appending an on-board pair keeps a list of pairs on the board. */
  lemma AppendPairOnBoard(spots: seq<U32>, x: U32, y: U32, size: nat)
    requires PairsOnBoard(spots, size) && x < size && y < size
    ensures PairsOnBoard(spots + [x, y], size)
  {
    var s := spots + [x, y];
    forall k | 0 <= k < |s| - 1 && k % 2 == 0
      ensures s[k] < size && s[k + 1] < size
    {
      if k < |spots| {
        assert s[k] == spots[k] && s[k + 1] == spots[k + 1];
      } else {
        assert k == |spots|;
      }
    }
  }

  /** Hit pairs stay damaged on a board that keeps every kind and never
      repairs a cell. */
  lemma HitsStayDamaged(hits: seq<U32>, b: Board, b': Board)
    requires b.Valid() && b'.Valid() && b'.size == b.size
    requires PairsOnBoard(hits, b.size) && HitsDamaged(hits, b)
    requires forall cx: nat, cy: nat :: cx < b.size && cy < b.size ==>
               CellAt(b', cx, cy).kind == CellAt(b, cx, cy).kind
               && (CellAt(b, cx, cy).damaged ==> CellAt(b', cx, cy).damaged)
    ensures HitsDamaged(hits, b')
  {
    forall k | 0 <= k < |hits| - 1 && k % 2 == 0
      ensures CellAt(b', hits[k], hits[k + 1]).kind != Empty && CellAt(b', hits[k], hits[k + 1]).damaged
    {
      var hx, hy := hits[k], hits[k + 1];
      assert hx < b.size && hy < b.size;
    }
  }

  /** Appending an occupied, damaged cell keeps the hit pairs damaged. */
  lemma AppendDamagedHit(hits: seq<U32>, b: Board, x: U32, y: U32)
    requires b.Valid() && PairsOnBoard(hits, b.size) && HitsDamaged(hits, b)
    requires x < b.size && y < b.size && CellAt(b, x, y).kind != Empty && CellAt(b, x, y).damaged
    ensures PairsOnBoard(hits + [x, y], b.size) && HitsDamaged(hits + [x, y], b)
  {
    AppendPairOnBoard(hits, x, y, b.size);
    var s := hits + [x, y];
    forall k | 0 <= k < |s| - 1 && k % 2 == 0
      ensures CellAt(b, s[k], s[k + 1]).kind != Empty && CellAt(b, s[k], s[k + 1]).damaged
    {
      if k < |hits| {
        assert s[k] == hits[k] && s[k + 1] == hits[k + 1];
      } else {
        assert k == |hits|;
      }
    }
  }

  /** Committing an attack keeps the memory consistent with the board. */
  lemma CommitKeepsConsistent(ai: AI, b: Board, x: U32, y: U32)
    requires b.Valid() && x < b.size && y < b.size
    ensures Commit(ai, b, x, y).board.Valid()
    ensures Consistent(ai, b) ==> Consistent(Commit(ai, b, x, y).ai, Commit(ai, b, x, y).board)
  {
    if Consistent(ai, b) {
      var t := Commit(ai, b, x, y);
      AppendPairOnBoard(ai.attackSpots, x, y, b.size);
      HitsStayDamaged(ai.hitSpots, b, t.board);
      if t.hit {
        AppendDamagedHit(ai.hitSpots, t.board, x, y);
      }
    }
  }

  /** The three checks of `do_turn` a proposal must pass: on the board, not
      reported by `has_attack`, and not yet damaged (read through `get_ship`,
      which cannot fail once the first check holds). */
  predicate Acceptable(ai: AI, b: Board, x: nat, y: nat)
    requires b.Valid()
  {
    x < b.size && y < b.size && !HasAttack(ai.attackSpots, x, y) && !CellAt(b, x, y).damaged
  }

  /** `do_turn`: propose a candidate for the difficulty; turn it away and start
      over when it is off the board, reported by `has_attack`, or already
      damaged; otherwise commit it. */
  function DoTurn(ai: AI, b: Board, d: Difficulty, rng: seq<nat>): (r: Option<Turn>)
    requires b.Valid() && b.size > 0 && |ai.hitSpots| % 2 == 0
    ensures r.Some? ==>
              && r.value.x < b.size && r.value.y < b.size
              && !HasAttack(ai.attackSpots, r.value.x, r.value.y)
              && !CellAt(b, r.value.x, r.value.y).damaged
              && r.value == Commit(ai, b, r.value.x, r.value.y)
    ensures r.Some? && Consistent(ai, b) ==> r.value.board.Valid() && Consistent(r.value.ai, r.value.board)
    decreases |rng|
  {
    match ChooseCandidate(ai, b.size, d, rng)
    case None => None
    case Some(c) =>
      if !Acceptable(ai, b, c.x, c.y) then DoTurn(ai, b, d, c.rest)
      else
        CommitKeepsConsistent(ai, b, c.x, c.y);
        Some(Commit(ai, b, c.x, c.y))
  }

  /** The difficulty's generators propose (x, y) from the draws `rng`. */
  predicate Proposes(ai: AI, size: U32, d: Difficulty, rng: seq<nat>, x: nat, y: nat)
    requires size > 0 && |ai.hitSpots| % 2 == 0
  {
    match ChooseCandidate(ai, size, d, rng)
    case None => false
    case Some(c) => c.x == x && c.y == y
  }

  /** One step of `do_turn`: no proposal, no turn; an acceptable proposal is
      committed; a rejected one is retried on the remaining draws. */
  lemma DoTurnStep(ai: AI, b: Board, d: Difficulty, rng: seq<nat>)
    requires b.Valid() && b.size > 0 && |ai.hitSpots| % 2 == 0
    ensures ChooseCandidate(ai, b.size, d, rng).None? ==> DoTurn(ai, b, d, rng).None?
    ensures ChooseCandidate(ai, b.size, d, rng).Some? ==>
              var c := ChooseCandidate(ai, b.size, d, rng).value;
              && (Acceptable(ai, b, c.x, c.y) ==> DoTurn(ai, b, d, rng) == Some(Commit(ai, b, c.x, c.y)))
              && (!Acceptable(ai, b, c.x, c.y) ==> DoTurn(ai, b, d, rng) == DoTurn(ai, b, d, c.rest))
  {
  }

  /** Every committed cell is what the difficulty's generators proposed from
      the draws, or from draws left over after earlier proposals were turned
      away: `do_turn` attacks nothing else. */
  lemma {:induction false} DoTurnCommitsAProposal(ai: AI, b: Board, d: Difficulty, rng: seq<nat>)
    requires b.Valid() && b.size > 0 && |ai.hitSpots| % 2 == 0
    ensures DoTurn(ai, b, d, rng).Some? ==>
              exists rest :: DrawsLeft(rest, rng) && Proposes(ai, b.size, d, rest, DoTurn(ai, b, d, rng).value.x, DoTurn(ai, b, d, rng).value.y)
    decreases |rng|
  {
    DoTurnStep(ai, b, d, rng);
    if DoTurn(ai, b, d, rng).Some? {
      var c := ChooseCandidate(ai, b.size, d, rng).value;
      if Acceptable(ai, b, c.x, c.y) {
        assert DrawsLeft(rng, rng);
        assert Proposes(ai, b.size, d, rng, c.x, c.y);
      } else {
        var t := DoTurn(ai, b, d, c.rest).value;
        DoTurnCommitsAProposal(ai, b, d, c.rest);
        var rest :| DrawsLeft(rest, c.rest) && Proposes(ai, b.size, d, rest, t.x, t.y);
        DrawsLeftTransitive(c.rest, rng);
      }
    }
  }

  /** `has_attack` only scans half the memory, and a missed cell stays
      undamaged, so the opponent can attack the same cell twice: with (4, 4)
      and (3, 3) already attacked, an Easy turn that draws (3, 3) attacks it
      again, on any board of size 5 where that cell is undamaged, a fresh
      one among them. */
  lemma RepeatedAttackPossible(b: Board)
    requires b.Valid() && b.size == 5 && !CellAt(b, 3, 3).damaged
    ensures var ai := AI([], [4, 4, 3, 3]);
            var r := DoTurn(ai, b, Easy, [3, 3]);
            && Consistent(ai, b)
            && IsRecorded(ai.attackSpots, 3, 3)
            && r.Some? && r.value.x == 3 && r.value.y == 3
            && r.value.ai.attackSpots == [4, 4, 3, 3, 3, 3]
    ensures !CellAt(New(Some(5)), 3, 3).damaged
  {
    RepeatedAttackMemory(b);
    RepeatedAttackCommitted(b);
    FreshBoardAdmitsRepeat();
  }

  /** A fresh board of size 5 meets the example's requirements. */
  lemma FreshBoardAdmitsRepeat()
    ensures New(Some(5)).Valid() && New(Some(5)).size == 5 && !CellAt(New(Some(5)), 3, 3).damaged
  {
    assert CellAt(New(Some(5)), 3, 3) == NewShip();
  }

  /** The memory of that example: consistent with the board, (3, 3) stored. */
  lemma RepeatedAttackMemory(b: Board)
    requires b.Valid() && b.size == 5
    ensures var ai := AI([], [4, 4, 3, 3]);
            Consistent(ai, b) && IsRecorded(ai.attackSpots, 3, 3)
  {
    var ai := AI([], [4, 4, 3, 3]);
    assert ai.attackSpots[2] == 3 && ai.attackSpots[3] == 3;
  }

  /** The turn of that example commits (3, 3), appending it to the attack
      memory a second time. */
  lemma RepeatedAttackCommitted(b: Board)
    requires b.Valid() && b.size == 5 && !CellAt(b, 3, 3).damaged
    ensures var ai := AI([], [4, 4, 3, 3]);
            var r := DoTurn(ai, b, Easy, [3, 3]);
            && r.Some? && r.value.x == 3 && r.value.y == 3
            && r.value.ai.attackSpots == [4, 4, 3, 3, 3, 3]
  {
    var ai := AI([], [4, 4, 3, 3]);
    RepeatedAttackProposed(b);
    DoTurnStep(ai, b, Easy, [3, 3]);
    assert Commit(ai, b, 3, 3).ai.attackSpots == [4, 4, 3, 3] + [3, 3];
  }

  /** The first step of that example: the draws (3, 3) propose the cell, and
      the half scan lets it through. */
  lemma RepeatedAttackProposed(b: Board)
    requires b.Valid() && b.size == 5 && !CellAt(b, 3, 3).damaged
    ensures var ai := AI([], [4, 4, 3, 3]);
            && ChooseCandidate(ai, b.size, Easy, [3, 3]) == Some(Candidate(3, 3, []))
            && Acceptable(ai, b, 3, 3)
  {
    var ai := AI([], [4, 4, 3, 3]);
    assert ai.attackSpots[2] == 3 && ai.attackSpots[3] == 3;
    assert !HasAttack(ai.attackSpots, 3, 3);
    assert [3, 3][2..] == [];
  }
}

=== FILE: board.dfy ===
/** The board (Board.rs): a flat `size * size` vector of cells, addressed by
    (x, y) at index `y * size + x`. Every operation is a pure function from the
    old board to the new one. */
module Boards {
  import opened Outcomes
  import opened Grid
  import opened Ships

  const DEFAULT_SIZE: nat := 10

  datatype Board = Board(size: U32, cells: seq<Ship>) {
    predicate Valid() {
      |cells| == size * size
    }
  }

  /** The cell at (x, y). */
  function CellAt(b: Board, x: nat, y: nat): Ship
    requires b.Valid() && x < b.size && y < b.size
  {
    IndexInRange(b.size, x, y);
    b.cells[Index(b.size, x, y)]
  }

  lemma SquareFitsU32(n: nat)
    requires n * n < U32_MODULUS
    ensures n < U32_MODULUS
  {
    if n >= 1 {
      MulMonotone(1, n, n);
    }
  }

  /** `Board::new`: a square of open water, 10 by 10 unless a size is given.
      The requirement is that `size * size` does not overflow `u32`. */
  function New(requested: Option<nat>): (b: Board)
    requires requested.Some? ==> requested.value * requested.value < U32_MODULUS
    ensures b.Valid()
    ensures requested.None? ==> b.size == DEFAULT_SIZE
    ensures requested.Some? ==> b.size == requested.value
    ensures forall i :: 0 <= i < |b.cells| ==> b.cells[i] == NewShip()
    ensures forall x: nat, y: nat :: x < b.size && y < b.size ==> CellAt(b, x, y) == NewShip()
  {
    var n := requested.GetOr(DEFAULT_SIZE);
    SquareFitsU32(n);
    IndicesInRange(n);
    Board(n, seq(n * n, _ => NewShip()))
  }

  /** `get_ship`: fails exactly when a coordinate is off the board. */
  function GetShip(b: Board, x: nat, y: nat): (r: Result<Ship>)
    requires b.Valid()
    ensures r.Failure? <==> x >= b.size || y >= b.size
    ensures r.Success? ==> Index(b.size, x, y) < |b.cells| && r.value == b.cells[Index(b.size, x, y)]
  {
    if x >= b.size || y >= b.size then Failure("Position is not on the board")
    else IndexInRange(b.size, x, y); Success(CellAt(b, x, y))
  }

  /** Replaces the cell at (x, y) through the reference `get_ship` hands out. */
  function WriteCell(b: Board, x: nat, y: nat, c: Ship): (r: Board)
    requires b.Valid() && x < b.size && y < b.size
    ensures r.Valid() && r.size == b.size
    ensures CellAt(r, x, y) == c
    ensures forall cx: nat, cy: nat :: cx < b.size && cy < b.size && (cx != x || cy != y) ==> CellAt(r, cx, cy) == CellAt(b, cx, cy)
  {
    IndicesInRange(b.size);
    IndexSeparates(b.size, x, y);
    Board(b.size, b.cells[Index(b.size, x, y) := c])
  }

  /** The assignment `get_ship(x, y).unwrap().ship_type = k` by which the game
      puts a remembered kind back under the cursor. */
  function SetKind(b: Board, x: nat, y: nat, k: ShipType): (r: Board)
    requires b.Valid() && x < b.size && y < b.size
    ensures r.Valid() && r.size == b.size
    ensures CellAt(r, x, y) == Ship(k, CellAt(b, x, y).damaged)
    ensures forall cx: nat, cy: nat :: cx < b.size && cy < b.size && (cx != x || cy != y) ==> CellAt(r, cx, cy) == CellAt(b, cx, cy)
  {
    WriteCell(b, x, y, CellAt(b, x, y).(kind := k))
  }

  /* ---------------------------------------------------------------------- */
  /* Whole-board scans                                                       */

  /** The loop of `any_overlap` from position `i` on. */
  function AnyDamagedFrom(cells: seq<Ship>, i: nat): (r: bool)
    requires i <= |cells|
    ensures r <==> exists j :: i <= j < |cells| && cells[j].damaged
    decreases |cells| - i
  {
    if i == |cells| then false
    else if cells[i].damaged then true
    else AnyDamagedFrom(cells, i + 1)
  }

  /** `any_overlap`: some cell is damaged, whatever its kind. */
  function AnyOverlap(b: Board): (r: bool)
    ensures r <==> exists i :: 0 <= i < |b.cells| && b.cells[i].damaged
  {
    AnyDamagedFrom(b.cells, 0)
  }

  /** The kinds `all_destroyed` requires to be damaged: everything except
      open water and the two cursor sentinels (so `Shot` counts). */
  predicate CountsForWin(k: ShipType) {
    k != Empty && k != Selection && k != WaterSelection
  }

  /** The loop of `all_destroyed` from position `i` on. */
  function AllSunkFrom(cells: seq<Ship>, i: nat): (r: bool)
    requires i <= |cells|
    ensures r <==> forall j :: i <= j < |cells| && CountsForWin(cells[j].kind) ==> cells[j].damaged
    decreases |cells| - i
  {
    if i == |cells| then true
    else if !CountsForWin(cells[i].kind) then AllSunkFrom(cells, i + 1)
    else if !cells[i].damaged then false
    else AllSunkFrom(cells, i + 1)
  }

  /** `all_destroyed`: every cell that counts for the win is damaged. */
  function AllDestroyed(b: Board): (r: bool)
    ensures r <==> forall i :: 0 <= i < |b.cells| && CountsForWin(b.cells[i].kind) ==> b.cells[i].damaged
  {
    AllSunkFrom(b.cells, 0)
  }

  /** Number of cells holding kind `k`. */
  function CountKind(cells: seq<Ship>, k: ShipType): nat
  {
    if |cells| == 0 then 0
    else CountKind(cells[..|cells| - 1], k) + (if cells[|cells| - 1].kind == k then 1 else 0)
  }

  /** A kind has count zero exactly when no cell holds it. */
  lemma {:induction false} CountZeroIffAbsent(cells: seq<Ship>, k: ShipType)
    ensures CountKind(cells, k) == 0 <==> forall i :: 0 <= i < |cells| ==> cells[i].kind != k
  {
    if |cells| > 0 {
      var n := |cells| - 1;
      CountZeroIffAbsent(cells[..n], k);
      assert forall i :: 0 <= i < n ==> cells[..n][i] == cells[i];
    }
  }

  /** Overwriting one cell changes each kind's count by what left and what arrived. */
  lemma {:induction false} CountAfterUpdate(cells: seq<Ship>, j: nat, c: Ship, k: ShipType)
    requires j < |cells|
    ensures CountKind(cells[j := c], k)
         == CountKind(cells, k) - (if cells[j].kind == k then 1 else 0) + (if c.kind == k then 1 else 0)
  {
    var n := |cells| - 1;
    if j == n {
      assert cells[j := c][..n] == cells[..n];
    } else {
      assert cells[j := c][..n] == cells[..n][j := c];
      CountAfterUpdate(cells[..n], j, c, k);
    }
  }

  /* ---------------------------------------------------------------------- */
  /* Attack and cursor                                                       */

  /** What `hit_ship` leaves behind and returns. */
  datatype Attack = Attack(board: Board, hit: bool)

  /** `hit_ship`: damages an in-bounds, occupied, undamaged cell and reports
      true; otherwise reports false and changes nothing. */
  function HitShip(b: Board, x: nat, y: nat): (r: Attack)
    requires b.Valid()
    ensures r.board.Valid() && r.board.size == b.size
    ensures r.hit <==> x < b.size && y < b.size && CellAt(b, x, y).kind != Empty && !CellAt(b, x, y).damaged
    ensures !r.hit ==> r.board == b
    ensures r.hit ==> CellAt(r.board, x, y) == Ship(CellAt(b, x, y).kind, true)
    ensures forall cx: nat, cy: nat :: cx < b.size && cy < b.size && (cx != x || cy != y) ==> CellAt(r.board, cx, cy) == CellAt(b, cx, cy)
    ensures forall cx: nat, cy: nat :: cx < b.size && cy < b.size ==>
              CellAt(r.board, cx, cy).kind == CellAt(b, cx, cy).kind
              && (CellAt(b, cx, cy).damaged ==> CellAt(r.board, cx, cy).damaged)
  {
    match GetShip(b, x, y)
    case Failure(_) => Attack(b, false)
    case Success(ship) =>
      if ship.kind == Empty then Attack(b, false)
      else if ship.damaged then Attack(b, false)
      else Attack(WriteCell(b, x, y, ship.(damaged := true)), true)
  }

  /** What `update_ship_selection` leaves behind: the board and the value of
      its `previous_ship_type` out-parameter. */
  datatype Cursor = Cursor(board: Board, previous: ShipType)

  /** `update_ship_selection`: remembers the kind under the cursor and shows a
      cursor sentinel there instead. Open water and undamaged shots show as
      `WaterSelection`, anything else as `Selection`; the damage flag is kept.
      Off the board nothing changes, the out-parameter included. */
  function UpdateShipSelection(b: Board, previous: ShipType, x: nat, y: nat): (r: Cursor)
    requires b.Valid()
    ensures r.board.Valid() && r.board.size == b.size
    ensures !(x < b.size && y < b.size) ==> r == Cursor(b, previous)
    ensures x < b.size && y < b.size ==>
              var was := CellAt(b, x, y);
              && r.previous == was.kind
              && CellAt(r.board, x, y).damaged == was.damaged
              && (CellAt(r.board, x, y).kind == WaterSelection <==> was.kind == Empty || (was.kind == Shot && !was.damaged))
              && (CellAt(r.board, x, y).kind == Selection <==> !(was.kind == Empty || (was.kind == Shot && !was.damaged)))
    ensures forall cx: nat, cy: nat :: cx < b.size && cy < b.size && (cx != x || cy != y) ==> CellAt(r.board, cx, cy) == CellAt(b, cx, cy)
  {
    match GetShip(b, x, y)
    case Failure(_) => Cursor(b, previous)
    case Success(ship) =>
      var shown := if ship.kind == Empty || (ship.kind == Shot && !ship.damaged) then WaterSelection else Selection;
      Cursor(SetKind(b, x, y, shown), ship.kind)
  }

  /* ---------------------------------------------------------------------- */
  /* Runs: `amount` consecutive cells from (x, y) along +x or +y             */

  function RunX(x: nat, i: nat, horizontal: bool): nat {
    if horizontal then x + i else x
  }

  function RunY(y: nat, i: nat, horizontal: bool): nat {
    if horizontal then y else y + i
  }

  /** Every cell of the run is on the board (otherwise the `unwrap` in the run
      operations panics). */
  predicate RunFits(size: nat, x: nat, y: nat, amount: nat, horizontal: bool) {
    amount == 0 || (if horizontal then x + amount <= size && y < size else x < size && y + amount <= size)
  }

  /** (cx, cy) is one of the run's cells. */
  predicate OnRun(x: nat, y: nat, amount: nat, horizontal: bool, cx: nat, cy: nat) {
    if horizontal then cy == y && x <= cx < x + amount else cx == x && y <= cy < y + amount
  }

  /** The per-cell rule of `set_ship_type`: the cell takes the new kind and is
      marked damaged exactly when it held a different, non-Empty kind. */
  function Overwrite(prior: Ship, kind: ShipType): (s: Ship)
    ensures s.kind == kind
    ensures !s.damaged <==> prior.kind == Empty || prior.kind == kind
  {
    Ship(kind, prior.kind != kind && prior.kind != Empty)
  }

  /** `set_ship_type`: applies `Overwrite` to each cell of the run in turn. */
  function SetShipType(b: Board, x: nat, y: nat, kind: ShipType, amount: nat, horizontal: bool): (r: Board)
    requires b.Valid() && RunFits(b.size, x, y, amount, horizontal)
    ensures r.Valid() && r.size == b.size
    ensures forall i :: 0 <= i < amount ==>
              CellAt(r, RunX(x, i, horizontal), RunY(y, i, horizontal))
              == Overwrite(CellAt(b, RunX(x, i, horizontal), RunY(y, i, horizontal)), kind)
    ensures forall cx: nat, cy: nat :: cx < b.size && cy < b.size && !OnRun(x, y, amount, horizontal, cx, cy) ==>
              CellAt(r, cx, cy) == CellAt(b, cx, cy)
    decreases amount
  {
    if amount == 0 then b
    else
      var prev := SetShipType(b, x, y, kind, amount - 1, horizontal);
      var cx, cy := RunX(x, amount - 1, horizontal), RunY(y, amount - 1, horizontal);
      WriteCell(prev, cx, cy, Overwrite(CellAt(prev, cx, cy), kind))
  }

  /** `get_ship_types`: the kinds along the run, in order. */
  function GetShipTypes(b: Board, x: nat, y: nat, amount: nat, horizontal: bool): (r: seq<ShipType>)
    requires b.Valid() && RunFits(b.size, x, y, amount, horizontal)
    ensures |r| == amount
    ensures forall i :: 0 <= i < amount ==> r[i] == CellAt(b, RunX(x, i, horizontal), RunY(y, i, horizontal)).kind
    decreases amount
  {
    if amount == 0 then []
    else GetShipTypes(b, x, y, amount - 1, horizontal)
         + [CellAt(b, RunX(x, amount - 1, horizontal), RunY(y, amount - 1, horizontal)).kind]
  }

  /** `set_ship_types`: writes the given kinds along the run, each undamaged. */
  function SetShipTypes(b: Board, x: nat, y: nat, kinds: seq<ShipType>, horizontal: bool): (r: Board)
    requires b.Valid() && RunFits(b.size, x, y, |kinds|, horizontal)
    ensures r.Valid() && r.size == b.size
    ensures forall i :: 0 <= i < |kinds| ==>
              CellAt(r, RunX(x, i, horizontal), RunY(y, i, horizontal)) == Ship(kinds[i], false)
    ensures forall cx: nat, cy: nat :: cx < b.size && cy < b.size && !OnRun(x, y, |kinds|, horizontal, cx, cy) ==>
              CellAt(r, cx, cy) == CellAt(b, cx, cy)
    decreases |kinds|
  {
    if |kinds| == 0 then b
    else
      var n := |kinds| - 1;
      var prev := SetShipTypes(b, x, y, kinds[..n], horizontal);
      WriteCell(prev, RunX(x, n, horizontal), RunY(y, n, horizontal), Ship(kinds[n], false))
  }
}

=== FILE: board_props.dfy ===
/** Properties of the board operations: the cell-level view of the whole-board
    scans, the snapshot/restore protocol around `set_ship_type`, attacks and
    the selection cursor. */
module BoardProperties {
  import opened Outcomes
  import opened Grid
  import opened Ships
  import opened Boards

  /** Two boards of one size that agree on every cell are the same board. */
  lemma BoardExtensionality(b1: Board, b2: Board)
    requires b1.Valid() && b2.Valid() && b1.size == b2.size
    requires forall x: nat, y: nat :: x < b1.size && y < b1.size ==> CellAt(b1, x, y) == CellAt(b2, x, y)
    ensures b1 == b2
  {
    forall i | 0 <= i < |b1.cells|
      ensures b1.cells[i] == b2.cells[i]
    {
      IndexDecompose(b1.size, i);
      assert CellAt(b1, i % b1.size, i / b1.size) == b1.cells[i];
    }
  }

  /** `get_ship` addresses every cell of the vector, each through exactly one
      in-bounds coordinate pair. */
  lemma GetShipAddressesEveryCell(b: Board, i: nat, x1: nat, y1: nat, x2: nat, y2: nat)
    requires b.Valid() && i < |b.cells|
    requires x1 < b.size && y1 < b.size && x2 < b.size && y2 < b.size
    ensures GetShip(b, i % b.size, i / b.size) == Success(b.cells[i])
    ensures GetShip(b, x1, y1).value == GetShip(b, x2, y2).value || Index(b.size, x1, y1) != Index(b.size, x2, y2)
    ensures Index(b.size, x1, y1) == Index(b.size, x2, y2) ==> x1 == x2 && y1 == y2
  {
    IndexDecompose(b.size, i);
    if Index(b.size, x1, y1) == Index(b.size, x2, y2) {
      IndexInjective(b.size, x1, y1, x2, y2);
    }
  }

  /** `any_overlap` seen cell by cell: some cell on the board is damaged. */
  lemma OverlapAtSomeCell(b: Board)
    requires b.Valid()
    ensures AnyOverlap(b) <==> exists x: nat, y: nat :: x < b.size && y < b.size && CellAt(b, x, y).damaged
  {
    if AnyOverlap(b) {
      var i :| 0 <= i < |b.cells| && b.cells[i].damaged;
      IndexDecompose(b.size, i);
      assert CellAt(b, i % b.size, i / b.size).damaged;
    }
    if exists x: nat, y: nat :: x < b.size && y < b.size && CellAt(b, x, y).damaged {
      var x: nat, y: nat :| x < b.size && y < b.size && CellAt(b, x, y).damaged;
      IndexInRange(b.size, x, y);
      assert b.cells[Index(b.size, x, y)].damaged;
    }
  }

  /** `all_destroyed` seen cell by cell: every cell that counts for the win is damaged. */
  lemma WinAtEveryCell(b: Board)
    requires b.Valid()
    ensures AllDestroyed(b) <==>
            forall x: nat, y: nat :: x < b.size && y < b.size && CountsForWin(CellAt(b, x, y).kind) ==> CellAt(b, x, y).damaged
  {
    if !AllDestroyed(b) {
      var i :| 0 <= i < |b.cells| && CountsForWin(b.cells[i].kind) && !b.cells[i].damaged;
      IndexDecompose(b.size, i);
      assert CellAt(b, i % b.size, i / b.size) == b.cells[i];
    } else {
      forall x: nat, y: nat | x < b.size && y < b.size && CountsForWin(CellAt(b, x, y).kind)
        ensures CellAt(b, x, y).damaged
      {
        IndexInRange(b.size, x, y);
        assert CellAt(b, x, y) == b.cells[Index(b.size, x, y)];
      }
    }
  }

  /** A new board has no damaged cell and, holding no ship, already counts as destroyed. */
  lemma FreshBoardState(requested: Option<nat>)
    requires requested.Some? ==> requested.value * requested.value < U32_MODULUS
    ensures !AnyOverlap(New(requested))
    ensures AllDestroyed(New(requested))
    ensures CountKind(New(requested).cells, Empty) == |New(requested).cells|
  {
    var b := New(requested);
    CountAllOf(b.cells, Empty);
  }

  lemma {:induction false} CountAllOf(cells: seq<Ship>, k: ShipType)
    requires forall i :: 0 <= i < |cells| ==> cells[i].kind == k
    ensures CountKind(cells, k) == |cells|
  {
    if |cells| > 0 {
      CountAllOf(cells[..|cells| - 1], k);
    }
  }

  /** (cx, cy) lies on the run exactly when it is the run's cell at some offset. */
  lemma RunMembership(x: nat, y: nat, amount: nat, horizontal: bool, cx: nat, cy: nat)
    ensures OnRun(x, y, amount, horizontal, cx, cy) <==>
            exists i :: 0 <= i < amount && RunX(x, i, horizontal) == cx && RunY(y, i, horizontal) == cy
  {
    if OnRun(x, y, amount, horizontal, cx, cy) {
      var i := if horizontal then cx - x else cy - y;
      assert RunX(x, i, horizontal) == cx && RunY(y, i, horizontal) == cy;
    }
  }

  /** Snapshot with `get_ship_types`, overwrite with `set_ship_type`, restore with
      `set_ship_types`: every cell of the run gets its kind back undamaged and
      nothing off the run has changed. */
  lemma SnapshotRestore(b: Board, x: nat, y: nat, kind: ShipType, amount: nat, horizontal: bool)
    requires b.Valid() && RunFits(b.size, x, y, amount, horizontal)
    ensures var restored := SetShipTypes(SetShipType(b, x, y, kind, amount, horizontal), x, y, GetShipTypes(b, x, y, amount, horizontal), horizontal);
            && restored.Valid() && restored.size == b.size
            && (forall i :: 0 <= i < amount ==>
                  CellAt(restored, RunX(x, i, horizontal), RunY(y, i, horizontal))
                  == Ship(CellAt(b, RunX(x, i, horizontal), RunY(y, i, horizontal)).kind, false))
            && (forall cx: nat, cy: nat :: cx < b.size && cy < b.size && !OnRun(x, y, amount, horizontal, cx, cy) ==>
                  CellAt(restored, cx, cy) == CellAt(b, cx, cy))
  {
  }

  /** When no cell of the run was damaged, the snapshot/overwrite/restore
      sequence gives back exactly the original board. */
  lemma RestoreIsIdentity(b: Board, x: nat, y: nat, kind: ShipType, amount: nat, horizontal: bool)
    requires b.Valid() && RunFits(b.size, x, y, amount, horizontal)
    requires forall i :: 0 <= i < amount ==> !CellAt(b, RunX(x, i, horizontal), RunY(y, i, horizontal)).damaged
    ensures SetShipTypes(SetShipType(b, x, y, kind, amount, horizontal), x, y, GetShipTypes(b, x, y, amount, horizontal), horizontal) == b
  {
    var restored := SetShipTypes(SetShipType(b, x, y, kind, amount, horizontal), x, y, GetShipTypes(b, x, y, amount, horizontal), horizontal);
    SnapshotRestore(b, x, y, kind, amount, horizontal);
    forall cx: nat, cy: nat | cx < b.size && cy < b.size
      ensures CellAt(restored, cx, cy) == CellAt(b, cx, cy)
    {
      RunMembership(x, y, amount, horizontal, cx, cy);
    }
    BoardExtensionality(restored, b);
  }

  /** Replacing one cell moves one unit of count from the kind that left to
      the kind that arrived. */
  lemma CountAfterWrite(b: Board, x: nat, y: nat, c: Ship, k: ShipType)
    requires b.Valid() && x < b.size && y < b.size
    ensures CountKind(WriteCell(b, x, y, c).cells, k)
         == CountKind(b.cells, k) - (if CellAt(b, x, y).kind == k then 1 else 0) + (if c.kind == k then 1 else 0)
  {
    IndexInRange(b.size, x, y);
    CountAfterUpdate(b.cells, Index(b.size, x, y), c, k);
  }

  /** `set_ship_type` over `amount` cells is the run over the first
      `amount - 1` cells followed by the write of the last one. */
  lemma SetShipTypeLastStep(b: Board, x: nat, y: nat, kind: ShipType, amount: nat, horizontal: bool)
    requires b.Valid() && RunFits(b.size, x, y, amount, horizontal) && amount > 0
    ensures var prev := SetShipType(b, x, y, kind, amount - 1, horizontal);
            var cx, cy := RunX(x, amount - 1, horizontal), RunY(y, amount - 1, horizontal);
            SetShipType(b, x, y, kind, amount, horizontal) == WriteCell(prev, cx, cy, Overwrite(CellAt(prev, cx, cy), kind))
  {
  }

  /** The last write of `set_ship_type` turns one cell of open water into `kind`. */
  lemma CountAfterLastStep(b: Board, x: nat, y: nat, kind: ShipType, amount: nat, horizontal: bool, k: ShipType)
    requires b.Valid() && RunFits(b.size, x, y, amount, horizontal) && amount > 0 && kind != Empty
    requires CellAt(b, RunX(x, amount - 1, horizontal), RunY(y, amount - 1, horizontal)).kind == Empty
    ensures CountKind(SetShipType(b, x, y, kind, amount, horizontal).cells, k)
         == CountKind(SetShipType(b, x, y, kind, amount - 1, horizontal).cells, k)
            - (if k == Empty then 1 else 0) + (if k == kind then 1 else 0)
  {
    var n := amount - 1;
    var prev := SetShipType(b, x, y, kind, n, horizontal);
    var cx, cy := RunX(x, n, horizontal), RunY(y, n, horizontal);
    assert !OnRun(x, y, n, horizontal, cx, cy);
    SetShipTypeLastStep(b, x, y, kind, amount, horizontal);
    CountAfterWrite(prev, cx, cy, Overwrite(CellAt(prev, cx, cy), kind), k);
  }

  /** Writing a ship kind over a run of open water adds the run's length to
      that kind's count, takes it from Empty's, and leaves every other count alone. */
  lemma {:induction false} CountAfterRun(b: Board, x: nat, y: nat, kind: ShipType, amount: nat, horizontal: bool, k: ShipType)
    requires b.Valid() && RunFits(b.size, x, y, amount, horizontal) && kind != Empty
    requires forall i :: 0 <= i < amount ==> CellAt(b, RunX(x, i, horizontal), RunY(y, i, horizontal)).kind == Empty
    ensures CountKind(SetShipType(b, x, y, kind, amount, horizontal).cells, k)
         == CountKind(b.cells, k) + (if k == kind then amount else 0) - (if k == Empty then amount else 0)
  {
    if amount > 0 {
      CountAfterRun(b, x, y, kind, amount - 1, horizontal, k);
      CountAfterLastStep(b, x, y, kind, amount, horizontal, k);
    }
  }

  /** Attacking the same cell twice: the second attack reports false and
      changes nothing. */
  lemma HitTwiceIsNoOp(b: Board, x: nat, y: nat)
    requires b.Valid()
    ensures var first := HitShip(b, x, y);
            !HitShip(first.board, x, y).hit && HitShip(first.board, x, y).board == first.board
  {
  }

  /** Once every counted cell is damaged, further attacks keep it that way. */
  lemma HitPreservesWin(b: Board, x: nat, y: nat)
    requires b.Valid() && AllDestroyed(b)
    ensures AllDestroyed(HitShip(b, x, y).board)
  {
    WinAtEveryCell(b);
    WinAtEveryCell(HitShip(b, x, y).board);
  }

  /** Moving the cursor away, the game writes the remembered kind back into the
      cell; that gives back exactly the board from before the cursor arrived,
      and while the cursor is there the cell shows a sentinel that does not
      reveal or count as a ship. */
  lemma SelectionRestore(b: Board, previous: ShipType, x: nat, y: nat)
    requires b.Valid() && x < b.size && y < b.size
    ensures var c := UpdateShipSelection(b, previous, x, y);
            && !CountsForWin(CellAt(c.board, x, y).kind)
            && SetKind(c.board, x, y, c.previous) == b
  {
    var c := UpdateShipSelection(b, previous, x, y);
    BoardExtensionality(SetKind(c.board, x, y, c.previous), b);
  }

  /** A destroyer placed at (0, 0) along +x on an otherwise empty board: hit,
      hit again (no effect), hit its second cell, and the board is destroyed. */
  lemma DestroyerScenario()
    ensures var b0 := New(None);
            var b1 := SetShipType(b0, 0, 0, Destroyer, 2, true);
            var a1 := HitShip(b1, 0, 0);
            var a2 := HitShip(a1.board, 0, 0);
            var a3 := HitShip(a2.board, 1, 0);
            && CellAt(b1, 0, 0) == Ship(Destroyer, false) && CellAt(b1, 1, 0) == Ship(Destroyer, false)
            && !AllDestroyed(b1)
            && a1.hit && CellAt(a1.board, 0, 0).damaged
            && !a2.hit && a2.board == a1.board
            && a3.hit && AllDestroyed(a3.board)
  {
    var b0 := New(None);
    var b1 := SetShipType(b0, 0, 0, Destroyer, 2, true);
    assert RunX(0, 0, true) == 0 && RunX(0, 1, true) == 1;
    var a1 := HitShip(b1, 0, 0);
    var a3 := HitShip(a1.board, 1, 0);
    WinAtEveryCell(b1);
    WinAtEveryCell(a3.board);
    forall cx: nat, cy: nat | cx < 10 && cy < 10 && CountsForWin(CellAt(a3.board, cx, cy).kind)
      ensures CellAt(a3.board, cx, cy).damaged
    {
      RunMembership(0, 0, 2, true, cx, cy);
    }
  }
}

=== FILE: difficulty.dfy ===
/** Difficulty.rs: the level chosen once at the start of a game and passed by
    value into every turn of the opponent. */
module Difficulties {

  datatype Difficulty = Easy | Medium | Hard
}

=== FILE: grid.dfy ===
/** The square grid every board is laid out on: 32-bit unsigned coordinates and
    the row-major flattening of a `size * size` grid into one vector. */
module Grid {

  const U32_MODULUS: int := 0x1_0000_0000

  /** Rust's `u32`. */
  type U32 = n: int | 0 <= n < 0x1_0000_0000

  /** The value a `u32` expression takes under wrap-around arithmetic. */
  function Wrap(v: int): (r: U32)
    ensures 0 <= v < U32_MODULUS ==> r == v
    ensures (v - r) % U32_MODULUS == 0
  {
    v % U32_MODULUS
  }

  /** Position of cell (x, y) in the flat vector: `y` whole rows of `size`
      cells, then `x` more. Written by recursion on the row so that the
      multiplication stays inside the lemmas of this module. */
  function Index(size: nat, x: nat, y: nat): nat {
    if y == 0 then x else size + Index(size, x, y - 1)
  }

  /** The recursive definition is the source's `y * size + x`. */
  lemma {:induction false} IndexIsRowMajor(size: nat, x: nat, y: nat)
    ensures Index(size, x, y) == y * size + x
  {
    if y > 0 {
      IndexIsRowMajor(size, x, y - 1);
    }
  }

  lemma MulMonotone(a: nat, b: nat, c: nat)
    requires a <= b
    ensures a * c <= b * c
  {
    assert b * c == a * c + (b - a) * c;
  }

  lemma IndexInRange(size: nat, x: nat, y: nat)
    requires x < size && y < size
    ensures Index(size, x, y) < size * size
  {
    IndexIsRowMajor(size, x, y);
    assert y * size + x < (y + 1) * size;
    MulMonotone(y + 1, size, size);
  }

  /** Every in-bounds coordinate pair lands inside the vector. */
  lemma IndicesInRange(size: nat)
    ensures forall x: nat, y: nat :: x < size && y < size ==> Index(size, x, y) < size * size
  {
    forall x: nat, y: nat | x < size && y < size
      ensures Index(size, x, y) < size * size
    {
      IndexInRange(size, x, y);
    }
  }

  /** Distinct in-bounds coordinate pairs land on distinct cells. */
  lemma {:induction false} IndexInjective(size: nat, x1: nat, y1: nat, x2: nat, y2: nat)
    requires x1 < size && x2 < size
    requires Index(size, x1, y1) == Index(size, x2, y2)
    ensures x1 == x2 && y1 == y2
  {
    if y1 > 0 && y2 > 0 {
      IndexInjective(size, x1, y1 - 1, x2, y2 - 1);
    }
  }

  /** The cell written at (x, y) is the only one whose index is `Index(size, x, y)`. */
  lemma IndexSeparates(size: nat, x: nat, y: nat)
    requires x < size && y < size
    ensures forall cx: nat, cy: nat :: cx < size && cy < size && (cx != x || cy != y) ==> Index(size, cx, cy) != Index(size, x, y)
  {
    forall cx: nat, cy: nat | cx < size && cy < size && Index(size, cx, cy) == Index(size, x, y)
      ensures cx == x && cy == y
    {
      IndexInjective(size, cx, cy, x, y);
    }
  }

  /** Every position of the vector is the index of exactly the coordinates
      `(j % size, j / size)`: the flattening is onto. */
  lemma IndexDecompose(size: nat, j: nat)
    requires j < size * size
    ensures size > 0
    ensures j % size < size && j / size < size
    ensures Index(size, j % size, j / size) == j
  {
    var q, r := j / size, j % size;
    assert j == q * size + r;
    IndexIsRowMajor(size, r, q);
    if q >= size {
      MulMonotone(size, q, size);
      assert false;
    }
  }
}

=== FILE: outcomes.dfy ===
/** Optional values and fallible results, standing in for Rust's `Option` and `Result`. */
module Outcomes {

  /** An optional value; `None` is also how the model reports that the supplied
      randomness ran out before a retry loop finished. */
  datatype Option<+T> = None | Some(value: T) {

    /** The wrapped value, or `default` when there is none (Rust's `unwrap_or`). */
    function GetOr(default: T): T {
      match this
      case Some(v) => v
      case None => default
    }
  }

  /** A value or an error message (Rust's `Result<_, &'static str>`). */
  datatype Result<+T> = Success(value: T) | Failure(error: string)
}

=== FILE: placement.dfy ===
/** The opponent's fleet placement (`AI::place_ships`): for each of the five
    ship kinds in ordinal order, draw an origin and a direction, write the run,
    and keep it when `any_overlap` reports no damaged cell; otherwise restore
    the run from its snapshot and draw again. */
module FleetPlacement {
  import opened Outcomes
  import opened Grid
  import opened Ships
  import opened Boards
  import opened BoardProperties
  import opened Rng

  /** Where a run starts and which way it goes. */
  datatype Origin = Origin(x: nat, y: nat, horizontal: bool)

  /** One drawn position: the coordinate along the run in
      `0..=size - len`, the one across it in `0..size`, and the direction. */
  function DrawOrigin(size: nat, len: nat, along: nat, across: nat, direction: nat): (o: Origin)
    requires 0 < len <= size
    ensures RunFits(size, o.x, o.y, len, o.horizontal)
    ensures o.horizontal ==> o.x + len <= size && o.y < size
    ensures !o.horizontal ==> o.x < size && o.y + len <= size
  {
    var horPos := GenRangeInclusive(0, size - len, along);
    var verPos := GenRange(0, size, across);
    var horizontal := GenBool(direction);
    if horizontal then Origin(horPos, verPos, true) else Origin(verPos, horPos, false)
  }

  /** Every in-bounds run is the result of some draw. */
  lemma EveryRunDrawable(size: nat, len: nat, o: Origin)
    requires 0 < len <= size
    requires if o.horizontal then o.x + len <= size && o.y < size else o.x < size && o.y + len <= size
    ensures o.horizontal ==> DrawOrigin(size, len, o.x, o.y, 1) == o
    ensures !o.horizontal ==> DrawOrigin(size, len, o.y, o.x, 0) == o
  {
    EveryOutcomeDrawable(0, size - len + 1, if o.horizontal then o.x else o.y);
    EveryOutcomeDrawable(0, size, if o.horizontal then o.y else o.x);
  }

  /** One pass of the inner `loop`: the board after it and whether it broke out. */
  datatype Attempt = Attempt(board: Board, accepted: bool)

  /** Snapshot the run, overwrite it with `kind`, keep the result when no cell
      on the board is damaged, and restore the snapshot otherwise. */
  function TryPlace(b: Board, kind: ShipType, len: nat, o: Origin): (r: Attempt)
    requires b.Valid() && RunFits(b.size, o.x, o.y, len, o.horizontal)
    ensures r.board.Valid() && r.board.size == b.size
    ensures r.accepted ==> !AnyOverlap(r.board)
    ensures r.accepted ==> forall i :: 0 <= i < len ==>
              CellAt(r.board, RunX(o.x, i, o.horizontal), RunY(o.y, i, o.horizontal)).kind == kind
    ensures !r.accepted ==> forall i :: 0 <= i < len ==>
              CellAt(r.board, RunX(o.x, i, o.horizontal), RunY(o.y, i, o.horizontal))
              == Ship(CellAt(b, RunX(o.x, i, o.horizontal), RunY(o.y, i, o.horizontal)).kind, false)
    ensures forall cx: nat, cy: nat :: cx < b.size && cy < b.size && !OnRun(o.x, o.y, len, o.horizontal, cx, cy) ==>
              CellAt(r.board, cx, cy) == CellAt(b, cx, cy)
  {
    var snapshot := GetShipTypes(b, o.x, o.y, len, o.horizontal);
    var written := SetShipType(b, o.x, o.y, kind, len, o.horizontal);
    if !AnyOverlap(written) then Attempt(written, true)
    else
      SnapshotRestore(b, o.x, o.y, kind, len, o.horizontal);
      Attempt(SetShipTypes(written, o.x, o.y, snapshot, o.horizontal), false)
  }

  /** Each cell of the run holds open water or `kind` already. */
  predicate RunClear(b: Board, kind: ShipType, len: nat, o: Origin)
    requires b.Valid() && RunFits(b.size, o.x, o.y, len, o.horizontal)
  {
    forall i :: 0 <= i < len ==>
      var prior := CellAt(b, RunX(o.x, i, o.horizontal), RunY(o.y, i, o.horizontal)).kind;
      prior == Empty || prior == kind
  }

  /** Writing over a clear run damages nothing on an undamaged board. */
  lemma ClearRunStaysUndamaged(b: Board, kind: ShipType, len: nat, o: Origin)
    requires b.Valid() && RunFits(b.size, o.x, o.y, len, o.horizontal) && !AnyOverlap(b)
    requires RunClear(b, kind, len, o)
    ensures !AnyOverlap(SetShipType(b, o.x, o.y, kind, len, o.horizontal))
  {
    var written := SetShipType(b, o.x, o.y, kind, len, o.horizontal);
    OverlapAtSomeCell(b);
    OverlapAtSomeCell(written);
    forall cx: nat, cy: nat | cx < b.size && cy < b.size
      ensures !CellAt(written, cx, cy).damaged
    {
      RunMembership(o.x, o.y, len, o.horizontal, cx, cy);
    }
  }

  /** A run whose write leaves no damage was clear. */
  lemma UndamagedRunWasClear(b: Board, kind: ShipType, len: nat, o: Origin)
    requires b.Valid() && RunFits(b.size, o.x, o.y, len, o.horizontal)
    requires !AnyOverlap(SetShipType(b, o.x, o.y, kind, len, o.horizontal))
    ensures RunClear(b, kind, len, o)
  {
    var written := SetShipType(b, o.x, o.y, kind, len, o.horizontal);
    OverlapAtSomeCell(written);
    forall i | 0 <= i < len
      ensures CellAt(b, RunX(o.x, i, o.horizontal), RunY(o.y, i, o.horizontal)).kind == Empty
           || CellAt(b, RunX(o.x, i, o.horizontal), RunY(o.y, i, o.horizontal)).kind == kind
    {
      assert !CellAt(written, RunX(o.x, i, o.horizontal), RunY(o.y, i, o.horizontal)).damaged;
    }
  }

  /** On a board with no damaged cell, a run is accepted exactly when each of
      its cells held open water or the same kind, and a rejected run leaves
      the board exactly as it was. */
  lemma AcceptedIffClear(b: Board, kind: ShipType, len: nat, o: Origin)
    requires b.Valid() && RunFits(b.size, o.x, o.y, len, o.horizontal) && !AnyOverlap(b)
    ensures TryPlace(b, kind, len, o).accepted <==> RunClear(b, kind, len, o)
    ensures !TryPlace(b, kind, len, o).accepted ==> TryPlace(b, kind, len, o).board == b
  {
    if RunClear(b, kind, len, o) {
      ClearRunStaysUndamaged(b, kind, len, o);
    }
    if !AnyOverlap(SetShipType(b, o.x, o.y, kind, len, o.horizontal)) {
      UndamagedRunWasClear(b, kind, len, o);
    } else {
      OverlapAtSomeCell(b);
      RestoreIsIdentity(b, o.x, o.y, kind, len, o.horizontal);
    }
  }

  /** A placed run and the draws left over. */
  datatype Placed = Placed(board: Board, rest: seq<nat>)

  /** The inner `loop` of `place_ships` for one kind: three draws per attempt,
      until an attempt is accepted or the draws run out. */
  function PlaceKind(b: Board, kind: ShipType, rng: seq<nat>): (r: Option<Placed>)
    requires b.Valid() && IsShipKind(kind) && Size(kind) <= b.size
    ensures r.Some? ==> r.value.board.Valid() && r.value.board.size == b.size && !AnyOverlap(r.value.board)
    ensures r.Some? ==> |r.value.rest| <= |rng| - 3 && DrawsLeft(r.value.rest, rng)
    ensures |rng| < 3 ==> r.None?
    decreases |rng|
  {
    if |rng| < 3 then None
    else
      DropLeavesSuffix(rng, 3);
      var o := DrawOrigin(b.size, Size(kind), rng[0], rng[1], rng[2]);
      var a := TryPlace(b, kind, Size(kind), o);
      if a.accepted then Some(Placed(a.board, rng[3..]))
      else PlaceKind(a.board, kind, rng[3..])
  }

  /** On a board with no damaged cell, the first three draws decide: a clear
      run ends the loop with the run written and three draws used; any other
      run leaves the board as it was and the loop starts over on the draws
      after it. */
  lemma PlaceKindFirstAttempt(b: Board, kind: ShipType, rng: seq<nat>)
    requires b.Valid() && IsShipKind(kind) && Size(kind) <= b.size && !AnyOverlap(b) && |rng| >= 3
    ensures var o := DrawOrigin(b.size, Size(kind), rng[0], rng[1], rng[2]);
            && (RunClear(b, kind, Size(kind), o) ==>
                  PlaceKind(b, kind, rng) == Some(Placed(SetShipType(b, o.x, o.y, kind, Size(kind), o.horizontal), rng[3..])))
            && (!RunClear(b, kind, Size(kind), o) ==> PlaceKind(b, kind, rng) == PlaceKind(b, kind, rng[3..]))
  {
    AcceptedIffClear(b, kind, Size(kind), DrawOrigin(b.size, Size(kind), rng[0], rng[1], rng[2]));
  }

  /** An accepted run of a kind absent from an undamaged board was all open
      water, and the board kept is the written one. */
  lemma AcceptedRunWasOpenWater(b: Board, kind: ShipType, len: nat, o: Origin)
    requires b.Valid() && RunFits(b.size, o.x, o.y, len, o.horizontal)
    requires !AnyOverlap(b) && CountKind(b.cells, kind) == 0 && TryPlace(b, kind, len, o).accepted
    ensures TryPlace(b, kind, len, o).board == SetShipType(b, o.x, o.y, kind, len, o.horizontal)
    ensures forall i :: 0 <= i < len ==> CellAt(b, RunX(o.x, i, o.horizontal), RunY(o.y, i, o.horizontal)).kind == Empty
  {
    AcceptedIffClear(b, kind, len, o);
    CountZeroIffAbsent(b.cells, kind);
    forall i | 0 <= i < len
      ensures CellAt(b, RunX(o.x, i, o.horizontal), RunY(o.y, i, o.horizontal)).kind == Empty
    {
      IndexInRange(b.size, RunX(o.x, i, o.horizontal), RunY(o.y, i, o.horizontal));
    }
  }

  /** Placing a kind that is not yet on a board without damage moves exactly
      `Size(kind)` cells from open water to that kind. */
  lemma {:induction false} PlaceKindCounts(b: Board, kind: ShipType, rng: seq<nat>, k: ShipType)
    requires b.Valid() && IsShipKind(kind) && Size(kind) <= b.size
    requires !AnyOverlap(b) && CountKind(b.cells, kind) == 0
    ensures PlaceKind(b, kind, rng).Some? ==>
              CountKind(PlaceKind(b, kind, rng).value.board.cells, k)
              == CountKind(b.cells, k) + (if k == kind then Size(kind) else 0) - (if k == Empty then Size(kind) else 0)
    decreases |rng|
  {
    if |rng| >= 3 {
      var o := DrawOrigin(b.size, Size(kind), rng[0], rng[1], rng[2]);
      if TryPlace(b, kind, Size(kind), o).accepted {
        AcceptedRunWasOpenWater(b, kind, Size(kind), o);
        CountAfterRun(b, o.x, o.y, kind, Size(kind), o.horizontal, k);
      } else {
        AcceptedIffClear(b, kind, Size(kind), o);
        PlaceKindCounts(b, kind, rng[3..], k);
      }
    }
  }

  /** After the kinds with ordinals `1..=j` are placed: no cell is damaged and
      each ship kind occupies its size in cells if placed, none otherwise. */
  predicate PlacedUpTo(b: Board, j: nat)
    requires b.Valid()
  {
    && !AnyOverlap(b)
    && forall k :: k != Empty ==> CountKind(b.cells, k) == (if Ordinal(k) <= j then Size(k) else 0)
  }

  /** Every cell is a new, undamaged cell of open water. */
  predicate IsFresh(b: Board) {
    forall i :: 0 <= i < |b.cells| ==> b.cells[i] == NewShip()
  }

  /** Nothing is placed on a fresh board. */
  lemma FreshIsPlacedUpToNone(b: Board)
    requires b.Valid()
    ensures IsFresh(b) ==> PlacedUpTo(b, 0)
  {
    if IsFresh(b) {
      forall k | k != Empty
        ensures CountKind(b.cells, k) == 0
      {
        CountZeroIffAbsent(b.cells, k);
      }
    }
  }

  /** Placing the kind with ordinal `j` after those before it extends the
      fleet by that kind. */
  lemma PlaceKindAdvances(b: Board, kind: ShipType, j: nat, rng: seq<nat>)
    requires b.Valid() && IsShipKind(kind) && Ordinal(kind) == j && Size(kind) <= b.size
    ensures PlacedUpTo(b, j - 1) && PlaceKind(b, kind, rng).Some? ==> PlacedUpTo(PlaceKind(b, kind, rng).value.board, j)
  {
    if PlacedUpTo(b, j - 1) && PlaceKind(b, kind, rng).Some? {
      forall k | k != Empty
        ensures CountKind(PlaceKind(b, kind, rng).value.board.cells, k) == (if Ordinal(k) <= j then Size(k) else 0)
      {
        PlaceKindCounts(b, kind, rng, k);
        OrdinalRoundTrip(k, kind);
      }
    }
  }

  /** The `for` loop of `place_ships` from the kind with ordinal `j` on:
      each kind in turn takes its run from the draws the kind before it
      left over. */
  function PlaceFrom(b: Board, j: nat, rng: seq<nat>): (r: Option<Placed>)
    requires b.Valid() && b.size >= 5 && 1 <= j <= 6 && (j > 1 ==> !AnyOverlap(b))
    ensures r.Some? ==> r.value.board.Valid() && r.value.board.size == b.size && !AnyOverlap(r.value.board)
    ensures r.Some? ==> DrawsLeft(r.value.rest, rng)
    ensures r.Some? && PlacedUpTo(b, j - 1) ==> PlacedUpTo(r.value.board, 5)
    decreases 6 - j
  {
    if j == 6 then Some(Placed(b, rng))
    else
      var kind := FromOrdinal(j).value;
      match PlaceKind(b, kind, rng)
      case None => None
      case Some(p) =>
        PlaceKindAdvances(b, kind, j, rng);
        DrawsLeftTransitive(p.rest, rng);
        PlaceFrom(p.board, j + 1, p.rest)
  }

  /** `place_ships`: Destroyer, Submarine, Cruiser, Battleship and Carrier in
      turn. On success no cell is damaged, and from a fresh board every ship
      kind ends up in exactly as many cells as its size, with no sentinel
      kind anywhere. */
  function PlaceShips(board: Board, rng: seq<nat>): (r: Option<Board>)
    requires board.Valid() && board.size >= 5
    ensures r.Some? ==> r.value.Valid() && r.value.size == board.size && !AnyOverlap(r.value)
    ensures r.Some? && IsFresh(board) ==> forall k :: IsShipKind(k) ==> CountKind(r.value.cells, k) == Size(k)
    ensures r.Some? && IsFresh(board) ==> forall k :: k != Empty && !IsShipKind(k) ==> CountKind(r.value.cells, k) == 0
  {
    FreshIsPlacedUpToNone(board);
    match PlaceFrom(board, 1, rng)
    case None => None
    case Some(p) => Some(p.board)
  }

  /** Rows `row..` of the board hold open water only. */
  predicate RowsOpenFrom(b: Board, row: nat)
    requires b.Valid()
  {
    forall x: nat, y: nat :: x < b.size && row <= y < b.size ==> CellAt(b, x, y).kind == Empty
  }

  /** Draws that put the kind with ordinal `row + 1` and each later one at
      the start of its own row, horizontally: along 0, across `row`,
      direction 1. */
  function RowByRowDraws(row: nat): seq<nat>
    decreases 5 - row
  {
    if row >= 5 then [] else [0, row, 1] + RowByRowDraws(row + 1)
  }

  /** Those draws never fail: each run lands on a row of open water, so
      every attempt is accepted and the fleet is complete. */
  lemma {:induction false} RowByRowPlaces(b: Board, row: nat)
    requires b.Valid() && b.size >= 5 && row <= 5 && !AnyOverlap(b) && RowsOpenFrom(b, row)
    ensures PlaceFrom(b, row + 1, RowByRowDraws(row)).Some?
    decreases 5 - row
  {
    if row < 5 {
      var kind := FromOrdinal(row + 1).value;
      var rng := RowByRowDraws(row);
      assert rng[0] == 0 && rng[1] == row && rng[2] == 1 && rng[3..] == RowByRowDraws(row + 1);
      var len := Size(kind);
      var o := Origin(0, row, true);
      EveryRunDrawable(b.size, len, o);
      assert RunClear(b, kind, len, o);
      PlaceKindFirstAttempt(b, kind, rng);
      ClearRunStaysUndamaged(b, kind, len, o);
      var written := SetShipType(b, 0, row, kind, len, true);
      forall x: nat, y: nat | x < b.size && row + 1 <= y < b.size
        ensures CellAt(written, x, y).kind == Empty
      {
        assert !OnRun(0, row, len, true, x, y);
      }
      RowByRowPlaces(written, row + 1);
    }
  }

  /** A fresh board is open water with no damaged cell. */
  lemma FreshIsOpenWater(b: Board)
    requires b.Valid() && IsFresh(b)
    ensures !AnyOverlap(b) && RowsOpenFrom(b, 0)
  {
    OverlapAtSomeCell(b);
    forall x: nat, y: nat | x < b.size && y < b.size
      ensures CellAt(b, x, y) == NewShip()
    {
      IndexInRange(b.size, x, y);
    }
  }

  /** `place_ships` cannot be stuck on every input: on any fresh board of
      size at least 5, the draws 0, 0, 1, 0, 1, 1, 0, 2, 1, 0, 3, 1, 0, 4, 1
      place the whole fleet, kind `i` at the start of row `i - 1`. */
  lemma FleetPlacedRowByRow(board: Board)
    requires board.Valid() && board.size >= 5 && IsFresh(board)
    ensures PlaceShips(board, [0, 0, 1, 0, 1, 1, 0, 2, 1, 0, 3, 1, 0, 4, 1]).Some?
  {
    FreshIsOpenWater(board);
    RowByRowPlaces(board, 0);
    RowByRowDrawsSpelled();
  }

  /** The row-by-row draws written out. */
  lemma RowByRowDrawsSpelled()
    ensures RowByRowDraws(0) == [0, 0, 1, 0, 1, 1, 0, 2, 1, 0, 3, 1, 0, 4, 1]
  {
    assert RowByRowDraws(4) == [0, 4, 1];
    assert RowByRowDraws(3) == [0, 3, 1, 0, 4, 1];
    assert RowByRowDraws(2) == [0, 2, 1, 0, 3, 1, 0, 4, 1];
    assert RowByRowDraws(1) == [0, 1, 1, 0, 2, 1, 0, 3, 1, 0, 4, 1];
    assert RowByRowDraws(0) == [0, 0, 1, 0, 1, 1, 0, 2, 1, 0, 3, 1, 0, 4, 1];
  }
}

=== FILE: rng.dfy ===
/** The random choices the opponent makes, as explicit input. A random source
    is a stream of arbitrary natural numbers ("draws"); each call of `rand`'s
    range sampler consumes one draw and reduces it into its range. */
module Rng {

  /** `gen_range(lo..hi)`. */
  function GenRange(lo: nat, hi: nat, draw: nat): (r: nat)
    requires lo < hi
    ensures lo <= r < hi
  {
    lo + draw % (hi - lo)
  }

  /** `gen_range(lo..=hi)`. */
  function GenRangeInclusive(lo: nat, hi: nat, draw: nat): (r: nat)
    requires lo <= hi
    ensures lo <= r <= hi
  {
    GenRange(lo, hi + 1, draw)
  }

  /** `gen_bool(0.5)`: a fair coin, the same as drawing from `0..2` and
      reading 1 as true. */
  function GenBool(draw: nat): (r: bool)
    ensures r <==> GenRange(0, 2, draw) == 1
  {
    draw % 2 == 1
  }

  /** No outcome of the sampler is lost by modelling it this way: every value
      of the range is produced by some draw, and so is each truth value. */
  lemma EveryOutcomeDrawable(lo: nat, hi: nat, v: nat)
    requires lo <= v < hi
    ensures GenRange(lo, hi, v - lo) == v
    ensures GenBool(1) && !GenBool(0)
  {
  }

  /** `rest` is what remains of `rng` after draws were taken from its front. */
  predicate DrawsLeft(rest: seq<nat>, rng: seq<nat>)
    decreases |rng|
  {
    rest == rng || (|rng| > 0 && DrawsLeft(rest, rng[1..]))
  }

  /** Leftovers of leftovers are leftovers. */
  lemma {:induction false} DrawsLeftTransitive(mid: seq<nat>, rng: seq<nat>)
    requires DrawsLeft(mid, rng)
    ensures forall rest :: DrawsLeft(rest, mid) ==> DrawsLeft(rest, rng)
    decreases |rng|
  {
    if mid != rng {
      DrawsLeftTransitive(mid, rng[1..]);
    }
  }

  /** Dropping the first `k` draws leaves a suffix, and whatever is left over
      from that suffix is left over from the whole stream. */
  lemma {:induction false} DropLeavesSuffix(rng: seq<nat>, k: nat)
    requires k <= |rng|
    ensures DrawsLeft(rng[k..], rng)
    ensures forall rest :: DrawsLeft(rest, rng[k..]) ==> DrawsLeft(rest, rng)
    decreases k
  {
    if k == 0 {
      assert rng[0..] == rng;
    } else {
      DropLeavesSuffix(rng[1..], k - 1);
      assert rng[1..][k - 1..] == rng[k..];
    }
    DrawsLeftTransitive(rng[k..], rng);
  }
}

=== FILE: ships.dfy ===
/** Cell kinds and cells (Ship.rs): the five ship kinds, the sentinel kinds used
    for shots and the selection cursor, their fixed ordinals, lengths and labels. */
module Ships {
  import opened Outcomes

  /** The kind held by a cell. The derive of FromPrimitive/ToPrimitive fixes the
      ordinals Empty = 0 through WaterSelection = 8. */
  datatype ShipType =
    | Empty
    | Destroyer
    | Submarine
    | Cruiser
    | Battleship
    | Carrier
    | Shot
    | Selection
    | WaterSelection

  /** One cell of a board: its kind and whether it has been damaged. */
  datatype Ship = Ship(kind: ShipType, damaged: bool)

  const MAX_ORDINAL: nat := 8

  /** `Ship::new`: a cell of open water. */
  function NewShip(): (s: Ship)
    ensures Ordinal(s.kind) == 0 && !s.damaged
  {
    Ship(Empty, false)
  }

  /** `ToPrimitive::to_u32`. */
  function Ordinal(k: ShipType): (n: nat)
    ensures n <= MAX_ORDINAL
    ensures n == 0 <==> k == Empty
  {
    match k
    case Empty => 0
    case Destroyer => 1
    case Submarine => 2
    case Cruiser => 3
    case Battleship => 4
    case Carrier => 5
    case Shot => 6
    case Selection => 7
    case WaterSelection => 8
  }

  /** `FromPrimitive::from_u32`: defined exactly on the ordinals 0..8. */
  function FromOrdinal(n: nat): (r: Option<ShipType>)
    ensures r.Some? <==> n <= MAX_ORDINAL
    ensures r.Some? ==> Ordinal(r.value) == n
  {
    if n == 0 then Some(Empty)
    else if n == 1 then Some(Destroyer)
    else if n == 2 then Some(Submarine)
    else if n == 3 then Some(Cruiser)
    else if n == 4 then Some(Battleship)
    else if n == 5 then Some(Carrier)
    else if n == 6 then Some(Shot)
    else if n == 7 then Some(Selection)
    else if n == 8 then Some(WaterSelection)
    else None
  }

  /** Converting a kind to its ordinal and back is the identity, so distinct
      kinds have distinct ordinals. */
  lemma OrdinalRoundTrip(k: ShipType, k': ShipType)
    ensures FromOrdinal(Ordinal(k)) == Some(k)
    ensures Ordinal(k) == Ordinal(k') ==> k == k'
  {
    match k
    case Empty =>
    case Destroyer =>
    case Submarine =>
    case Cruiser =>
    case Battleship =>
    case Carrier =>
    case Shot =>
    case Selection =>
    case WaterSelection =>
  }

  /** The five kinds a fleet is made of (ordinals 1..5); the other four are
      rendering and cursor sentinels. */
  predicate IsShipKind(k: ShipType) {
    1 <= Ordinal(k) <= 5
  }

  /** `get_size`: the length of a ship of this kind, 0 for the sentinels. */
  function Size(k: ShipType): (n: nat)
    ensures n > 0 <==> IsShipKind(k)
    ensures IsShipKind(k) ==> 2 <= n <= 5
  {
    match k
    case Destroyer => 2
    case Submarine => 3
    case Cruiser => 3
    case Battleship => 4
    case Carrier => 5
    case _ => 0
  }

  /** Stepping through the ordinals 1..5 visits the ship kinds in order of
      non-decreasing length. */
  lemma SizesFollowOrdinals(a: ShipType, b: ShipType)
    requires IsShipKind(a) && IsShipKind(b) && Ordinal(a) <= Ordinal(b)
    ensures Size(a) <= Size(b)
  {
  }

  /** `to_string`: the display name, empty for the sentinels. */
  function Name(k: ShipType): (s: string)
    ensures |s| > 0 <==> IsShipKind(k)
  {
    match k
    case Destroyer => "Destroyer"
    case Submarine => "Submarine"
    case Cruiser => "Cruiser"
    case Battleship => "Battleship"
    case Carrier => "Carrier"
    case _ => ""
  }

  /** `to_shorten`: the three-character label drawn in a board cell. */
  function Shorten(k: ShipType): (s: string)
    ensures s == "" <==> k == Empty
    ensures k != Empty ==> |s| == 3
  {
    match k
    case Destroyer => "des"
    case Submarine => "sub"
    case Cruiser => "cru"
    case Battleship => "bat"
    case Carrier => "car"
    case Shot => " x "
    case Selection => " + "
    case WaterSelection => " + "
    case _ => ""
  }

  /** Every ship kind has its own name and its own label; the two cursor
      sentinels share one label. */
  lemma LabelsDistinguishShips(a: ShipType, b: ShipType)
    requires IsShipKind(a) && IsShipKind(b) && a != b
    ensures Name(a) != Name(b) && Shorten(a) != Shorten(b)
    ensures Shorten(Selection) == Shorten(WaterSelection)
  {
  }
}
